=== FILE: README.md ===
# slim4-root path resolution, modelled in Dafny

slim4-root gives a Slim 4 application one registry of its directories.
The model covers five parts of it:

- **Normalizer**: backslashes become slashes and trailing slashes are
  trimmed.
- **Discoverer**: a fixed table of candidate sub-directories per category;
  the first candidate that exists wins.
- **Validator**: in strict mode, the first entry that is not a directory
  raises an invalid-path error.
- **Paths registry**: twelve default entries, then
  `array_merge(defaults, discovered, custom)`, every value normalized, then
  optional strict validation. It also provides the twelve getters, `path()`
  and the build and Vite-manifest paths.
- **Base-path detection and logger factory**: base-path detection computes
  an application's URL prefix from the server parameters. The Monolog
  factory resolves log paths under the logs directory and chooses one
  handler.

The model is functional throughout:

- strings are `seq<char>`, and one `char` stands for one byte: PHP strings
  are byte strings, and `strlen` and `substr` count bytes, so text outside
  ASCII is the sequence of its UTF-8 bytes;
- a PHP array with string keys is an ordered sequence of key/value pairs
  (`PhpArray.Arr`, keys unique);
- the filesystem is a set of existing directories (`dirs`, standing for
  `is_dir`) and a set of existing paths (`files`, for `file_exists`,
  which holds for files and directories alike);
- the server API name and the host OS family are parameters;
- exceptions are the `Failure` variant of a `Result`.

Modules, one per file:

| file | module | models |
|---|---|---|
| wrappers.dfy | Wrappers | `Option`, `Result`, `Outcome` |
| php_array.dfy | PhpArray | ordered arrays, `$a[$k] = $v`, `array_merge` |
| categories.dfy | Categories | the twelve path categories, their keys and default suffixes |
| normalizer.dfy | Normalizer | `PathsNormalizer::normalize`, `rtrim`, `ltrim` |
| discoverer.dfy | Discoverer | `PathsDiscoverer` |
| validator.dfy | Validator | `PathsValidator` and the invalid-path exception |
| paths_registry.dfy | PathsRegistry | `Paths` |
| php_path.dfy | PhpPath | PHP `dirname` and `parse_url(..., PHP_URL_PATH)` |
| base_path.dfy | BasePath | `BasePathMiddleware`'s base-path detection |
| monolog.dfy | MonologConfig | `MonologFactory` |

## Model

| member | source | states |
|---|---|---|
| PhpArray.Lookup | src/Paths.php:86 | `$m[$k]` is present exactly when the key is in the array; it is an entry of the array, and in a PHP array it is the value stored under that key |
| PhpArray.Put | src/Paths.php:71 | assignment adds the key to the key set and nothing else |
| PhpArray.PutLookup | src/Paths.php:71 | after `$m[$k] = $v`, `$m[$k]` reads `v` and every other key reads as before |
| PhpArray.PutKnownOrder | src/Paths.php:70-72 | assigning a key the array already holds keeps the key order |
| PhpArray.PutFresh | src/PathsDiscoverer.php:42 | assigning a new key appends it at the end |
| PhpArray.PutUnique | src/Paths.php:71 | assignment never creates a duplicate key |
| PhpArray.Merge | src/Paths.php:67 | the keys of `array_merge($a, $b)` are those of `a` and of `b` |
| PhpArray.MergeUnique | src/Paths.php:67 | `array_merge` onto a PHP array yields a PHP array |
| PhpArray.MergeLookup | src/Paths.php:67 | in `array_merge($a, $b)` a key takes `b`'s value when `b` has it, otherwise `a`'s |
| PhpArray.MergeKeyOrder | src/Paths.php:67 | `array_merge($a, $b)` keeps `a`'s key order and appends `b`'s new keys in `b`'s order |
| Normalizer.ReplaceBackslashes | src/PathsNormalizer.php:21 | `str_replace('\\', '/', ...)` keeps the length; each backslash becomes a slash and every other character is kept |
| Normalizer.RTrimSlashes | src/PathsNormalizer.php:21 | `rtrim($s, '/')` is a prefix that does not end in a slash and is followed only by slashes |
| Normalizer.RTrimSlashesUnique | src/PathsNormalizer.php:21 | only one prefix has those three properties, so the contract of `rtrim` determines its result |
| Normalizer.LTrimSlashes | src/Paths.php:185 | `ltrim($s, '/')` is a suffix that does not start with a slash and is preceded only by slashes |
| Normalizer.Normalize | src/PathsNormalizer.php:19-22 | the output has no backslash and no trailing slash, is no longer than the input, is a prefix of the backslash-replaced input, and only slashes were cut |
| Normalizer.NormalizeFixedPoint | src/PathsNormalizer.php:21 | a path normalizes to itself if and only if it has no backslash and no trailing slash |
| Normalizer.NormalizeIdempotent | src/PathsNormalizer.php:21 | normalizing twice is normalizing once |
| Normalizer.NormalizeJoin | src/Paths.php:46-56 | a backslash-free head followed by a clean, non-empty tail is left unchanged |
| Normalizer.NormalizeLeadingSlash | src/PathsNormalizer.php:21 | a leading slash survives normalization unless nothing else does |
| Normalizer.NormalizeTrailingSlash | src/PathsNormalizer.php:21 | a trailing slash on the input never changes the result |
| Normalizer.NormalizeAfterReplace | src/PathsNormalizer.php:21 | inputs that agree once backslashes are replaced normalize alike |
| Normalizer.NormalizeUnixExamples | tests/PathsNormalizerTest.php:24-25 | `/var/www/app` and `/var/www/app/` both normalize to `/var/www/app` |
| Normalizer.NormalizeWindowsExamples | tests/PathsNormalizerTest.php:26-28 | `C:\path\to\project`, the same with a trailing backslash, and `C:/path/to/project/` all normalize to `C:/path/to/project` |
| Normalizer.NormalizeRootExample | src/PathsNormalizer.php:21 | `/` and `///` normalize to the empty string |
| Categories.TabulateKeys | src/PathsDiscoverer.php:39-44 | every key of a tabulated array names a listed category that has a value |
| Categories.TabulateLookup | src/PathsDiscoverer.php:39-44 | looking up a category gives its value if it is listed, and nothing if it is not |
| Categories.TabulateUnique | src/PathsDiscoverer.php:39-44 | distinct categories give distinct keys |
| Categories.TabulateTotal | src/Paths.php:44-57 | when every category has a value, the keys are the category names in order |
| Categories.TabulateEveryKey | src/Paths.php:44-57 | a table over every category, each with a value, has exactly the twelve names as keys |
| Categories.Tabulate | src/PathsDiscoverer.php:38-45 | the table built by the `foreach` has at most one entry per listed category (its contents are stated by the four lemmas below) |
| Discoverer.FirstValidPath | src/PathsDiscoverer.php:56-65 | a path is found if and only if some candidate under the root is a directory, and then it is the first such candidate |
| Discoverer.Found | src/PathsDiscoverer.php:40 | a category's search finds a path if and only if one of its candidates exists, and then the first; the root has no candidates |
| Discoverer.Discover | src/PathsDiscoverer.php:36-46 | looking up any category in the discovered array gives what its search finds, and nothing for the root |
| Discoverer.DiscoverTable | src/PathsDiscoverer.php:39-44 | the table built over the pattern order holds, per category, exactly what its search finds |
| Discoverer.DiscoverKeys | src/PathsDiscoverer.php:15-27 | discovery only produces pattern categories and never `root` |
| Discoverer.DiscoverLookup | src/PathsDiscoverer.php:36-46 | each category's discovered entry is what its candidate search finds; `root` has none |
| Discoverer.DiscoverSpec | src/PathsDiscoverer.php:40-43 | a category is discovered if and only if one of its candidates exists, and then it maps to the first existing candidate joined to the root |
| Discoverer.DiscoverNothing | tests/PathsDiscovererTest.php:50-59 | with no candidate directory at all the result is empty |
| Discoverer.ViewsPriority | src/PathsDiscoverer.php:18 | `resources/views` wins over `templates` for `views` |
| Discoverer.DiscoverExample | tests/PathsDiscovererTest.php:20-39 | with `config`, `resources/views` (so `resources`) and `public`, those four categories are found at their root-joined paths, and they are the only keys |
| Discoverer.DiscoverExampleKeys | tests/PathsDiscovererTest.php:23-34 | under those directories no other category is discovered |
| Discoverer.DiscoverWithin | src/PathsDiscoverer.php:41-43 | only categories whose search finds something appear as keys |
| Discoverer.ForgetKey | src/PathsDiscoverer.php:41-43 | every discovered key names a category whose search found something |
| Discoverer.OnlyListedFound | src/PathsDiscoverer.php:15-27 | under the test's directories, only config, resources, views and public have an existing candidate |
| Discoverer.Unlisted | src/PathsDiscoverer.php:15-27 | no other category lists `config`, `resources`, `resources/views` or `public` among its candidates |
| Discoverer.JoinInjective | src/PathsDiscoverer.php:59 | joining different candidates onto the same root gives different paths |
| Discoverer.FoundFirst | src/PathsDiscoverer.php:58-62 | an existing first candidate is what discovery finds |
| Discoverer.FoundSecond | src/PathsDiscoverer.php:58-62 | when the first candidate is missing and the second exists, the second is found |
| Validator.Validate | src/PathsValidator.php:24-33 | without `strict` it always passes; with it, it fails if and only if some path is not a directory, and then it reports the first such entry in array order |
| Validator.InvalidPath.Message | src/PathsValidator.php:28-30 | the exception text carries the category right after its fixed opening and ends with the path |
| Validator.MessageNamesPath | src/PathsValidator.php:28-30 | for one category, equal messages mean equal paths: the text identifies the failing path |
| Validator.ValidateExample | tests/PathsValidatorTest.php:21-89 | existing directories pass strict validation; missing ones pass non-strict validation and fail strict validation on `config` first |
| PathsRegistry.DefaultPaths | src/Paths.php:44-57 | the default table has exactly the twelve category keys, in declaration order |
| PathsRegistry.DefaultLookup | src/Paths.php:45-56 | each default is the root followed by the category's fixed suffix |
| PathsRegistry.NormalizeValues | src/Paths.php:70-72 | each entry keeps its key, and its value is normalized |
| PathsRegistry.NormalizeValuesLookup | src/Paths.php:70-72 | normalizing the values keeps the key order and the key set, and each lookup is normalized |
| PathsRegistry.NormalizeValuesUnique | src/Paths.php:70-72 | normalizing the values keeps the keys distinct |
| PathsRegistry.Discovered | src/Paths.php:60-64 | without discovery the layer is empty; with it, it never holds `root` or a key outside the twelve categories |
| PathsRegistry.Layered | src/Paths.php:67 | the merged keys are the union of the three layers' keys |
| PathsRegistry.LayeredLookup | src/Paths.php:66-67 | per key, the custom layer wins, then the discovered one, then the default |
| PathsRegistry.LayeredKeys | src/Paths.php:67 | when discovery adds no new key, the merged order is the defaults' followed by the new custom keys |
| PathsRegistry.Resolve | src/Paths.php:70-72 | every resolved value has no backslash and no trailing slash |
| PathsRegistry.ResolveKeys | src/Paths.php:44-67 | the resolved keys are the twelve built-in keys in default order, then the custom keys that are not built-in, in the caller's order |
| PathsRegistry.ResolveKeySet | src/Paths.php:44-67 | the resolved key set is exactly the built-in keys plus the custom keys |
| PathsRegistry.ResolveCategory | src/Paths.php:59-72 | a built-in category resolves to its normalized custom path if it has one; else to its normalized discovered directory (discovery on, not `root`); else to the default under the normalized root |
| PathsRegistry.LayeredCategory | src/Paths.php:44-67 | before normalization, a built-in category holds its custom path if it has one, else its discovered directory, else its default |
| PathsRegistry.DefaultStaysNormalized | src/Paths.php:45-56 | a default path built on a normalized root needs no further normalization |
| PathsRegistry.ResolveCustom | src/Paths.php:67-72 | any custom key, built-in or not, resolves to its normalized custom path |
| PathsRegistry.Construct | src/Paths.php:34-79 | construction succeeds if and only if validation is off or every resolved path is a directory; success yields the normalized root and the resolved map, which holds every category; failure reports the first invalid entry |
| PathsRegistry.Checked | src/Paths.php:75-78 | strict validation runs only when asked for and passes the registry through unchanged |
| PathsRegistry.ResolveValid | src/Paths.php:44-72 | the resolved map has distinct keys and holds every built-in category |
| PathsRegistry.Get | src/Paths.php:84-175 | each getter returns the value stored under its category's key |
| PathsRegistry.GetPrecedence | src/Paths.php:67 | a getter returns the normalized custom path if one was given, else the normalized discovered directory, else the default under the normalized root |
| PathsRegistry.GetCustom | tests/PathsTest.php:46-58 | a category with a custom path reads back that path, normalized |
| PathsRegistry.GetDiscovered | tests/PathsTest.php:252-263 | a category without a custom path but with a discovered directory reads back that directory |
| PathsRegistry.RootPathNormalized | src/Paths.php:41-45 | unless `root` is overridden, `getRootPath()` is the normalized constructor argument and equals the stored root |
| PathsRegistry.DefaultsOnly | tests/PathsTest.php:222-244 | without discovery or custom paths, the keys are the twelve names in order and each getter is the normalized root plus its suffix |
| PathsRegistry.DiscoveryFindsNothing | tests/PathsTest.php:78-201 | when no candidate directory exists, construction with discovery on equals construction with it off |
| PathsRegistry.Path | src/Paths.php:180-186 | `path($p)` is the root, one slash, then the normalized argument with its leading slashes (and only those) removed |
| PathsRegistry.PathNormalizes | src/Paths.php:182-185 | `path()` sees its argument only through the normalizer |
| PathsRegistry.PathLeadingSlash | src/Paths.php:185 | `path('/x')` equals `path('x')` |
| PathsRegistry.PathClean | src/Paths.php:180-186 | a clean relative path is appended to the root unchanged |
| PathsRegistry.BuildPath | src/Paths.php:201-204 | `getBuildPath($d)` is the public path, a slash, then `d` |
| PathsRegistry.BuildAssetsPath | src/Paths.php:209-212 | `getBuildAssetsPath` ignores its argument and equals `getBuildPath('assets')` |
| PathsRegistry.FirstExisting | src/Paths.php:224-228 | the returned candidate exists and every candidate before it does not; none is returned exactly when no candidate exists |
| PathsRegistry.ViteManifestPath | src/Paths.php:217-231 | the manifest is `assets/manifest.json` when that file exists, else `assets/.vite/manifest.json` |
| PathsRegistry.ConstructorExamples | tests/PathsTest.php:20-201 | with no custom paths and auto-discovery off, for a clean root with or without a trailing slash, every getter is the root plus its suffix |
| PathsRegistry.PathExample | tests/PathsTest.php:208-215 | `config/app.php` and `/config/app.php` both land under the root |
| PathsRegistry.CustomPathsExample | tests/PathsTest.php:46-58 | custom `config` and `views` entries are what the getters return |
| PathsRegistry.AutoDiscoveryExample | tests/PathsTest.php:252-263 | with `config`, `templates` and `public` present, the getters return those directories, and `views` is `templates` |
| PathsRegistry.AutoDiscoveryFound | src/PathsDiscoverer.php:16-22 | in that test, `config` and `public` are found as first candidates and `templates` as the second candidate for `views` |
| PhpPath.DropName | src/BasePathMiddleware.php:87 | dropping the last name leaves a prefix that is empty or ends with a slash, followed by no slash |
| PhpPath.Dirname | src/BasePathMiddleware.php:87 | `dirname` is empty only for the empty string; it is `/`, `.`, or a proper prefix with no trailing slash; a bare name gives `.` and a path of slashes only gives `/` |
| PhpPath.DirnameFixed | src/BasePathMiddleware.php:113 | `/` and `.` are their own directory |
| PhpPath.DirnameChild | src/BasePathMiddleware.php:87 | the directory of `dir/name` is `dir` without its trailing slashes, whenever that is not empty (`a/b` and `a//b` both give `a`) |
| PhpPath.DirnameTrailing | src/BasePathMiddleware.php:87 | a trailing slash never changes the directory of a non-empty path (`a/b/` gives what `a/b` gives) |
| PhpPath.DirnameByTrim | src/BasePathMiddleware.php:87 | `dirname` of a non-empty path depends only on the path with its trailing slashes trimmed |
| PhpPath.DirnameOfParent | src/BasePathMiddleware.php:87 | a path without a trailing slash whose last name sits below a parent `b` has `b` without its trailing slashes as its directory, unless `b` is slashes only |
| PhpPath.DirnameTop | src/BasePathMiddleware.php:87 | the directory of a name below slashes only (`/name`, `//name`) is `/` |
| PhpPath.DirnameLevels | src/BasePathMiddleware.php:113 | `dirname($s, $levels)` is never longer than `s` |
| PhpPath.DirnameTwoLevels | src/BasePathMiddleware.php:113 | `dirname($s, 2)` is `dirname(dirname($s))` |
| PhpPath.UrlPath | src/BasePathMiddleware.php:112 | the URL path is a prefix of the target that holds no `?` or `#` and stops at the first of them |
| PhpPath.UrlPathClean | src/BasePathMiddleware.php:112 | a target with no query or fragment is all path |
| PhpPath.UrlPathQuery | src/BasePathMiddleware.php:112 | the query string and fragment are cut off |
| BasePath.ByScriptName | src/BasePathMiddleware.php:84-94 | the result is empty or longer than one character; it is empty for an unset or empty script name; when non-empty it is a proper prefix of the script name with slashes |
| BasePath.ScriptDir | src/BasePathMiddleware.php:113 | `dirname($scriptName, 2)` with slashes is `dirname` applied twice, and no longer than the script name |
| BasePath.ByRequestUri | src/BasePathMiddleware.php:103-129 | the result is empty or longer than one character; it is empty without a request URI or when the script directory is `/`; otherwise it is a prefix of the URL path no longer than a non-empty script directory. With a script directory longer than one character it is exactly that long when the URL path can hold it; when the URL path is shorter, or the script directory is empty, the whole URL path is kept if it is longer than one character |
| BasePath.Detect | src/BasePathMiddleware.php:66-75 | `cli-server` takes the script-name branch and every other server API the request-URI branch |
| BasePath.CliServerIgnoresUri | src/BasePathMiddleware.php:69-70 | under the built-in server the request URI plays no part |
| BasePath.ByScriptNameChild | src/BasePathMiddleware.php:86-93 | a front controller `dir/name` gives `dir`, without trailing slashes and with backslashes replaced, when that is longer than one character, else the empty string |
| BasePath.ByScriptNameBare | src/BasePathMiddleware.php:86-93 | a script name without a slash (`index.php`) has directory `.`, so the base path is empty |
| BasePath.ByScriptNameTrailing | src/BasePathMiddleware.php:86-87 | a trailing slash on a non-empty script name does not change the base path |
| BasePath.ByRequestUriMatches | src/BasePathMiddleware.php:119-125 | when the script directory is longer than `/` and is a prefix of the URL path, it is the base path |
| BasePath.ByRequestUriMismatch | src/BasePathMiddleware.php:119-125 | the cut does not check the prefix: a URL path that does not start with the script directory is still cut to its length, giving something other than the directory |
| BasePath.ByRequestUriNoScript | src/BasePathMiddleware.php:109-125 | with an unset or empty script name nothing is cut, so the whole URL path is the base path when it is longer than one character |
| BasePath.ByRequestUriBareScript | src/BasePathMiddleware.php:113-128 | a non-empty script name with no slash always gives the empty string |
| BasePath.ScriptTwoUp | src/BasePathMiddleware.php:113 | two levels above `dir/sub/name` is `dir` |
| BasePath.ScriptUnderRoot | src/BasePathMiddleware.php:113-117 | two levels above `/sub/name` is `/` |
| BasePath.CliServerExample | tests/BasePathMiddlewareTest.php:22-44 | `/index.php` under the built-in server gives the empty string |
| BasePath.ApacheExample | tests/BasePathMiddlewareTest.php:49-72 | `/my-app/public/index.php` with `/my-app/users` gives `/my-app` |
| BasePath.RootPathExample | tests/BasePathMiddlewareTest.php:77-100 | `/public/index.php` with `/users` gives the empty string |
| BasePath.NoRequestUriExample | tests/BasePathMiddlewareTest.php:105-127 | without a request URI the result is the empty string |
| MonologConfig.MergeConfig | src/Integration/MonologFactory.php:59 | for each of the ten keys, a value the caller gives replaces the default and an absent key keeps it |
| MonologConfig.MergeNothing | src/Integration/MonologFactory.php:28-39 | an empty configuration yields the defaults |
| MonologConfig.MergeEverything | src/Integration/MonologFactory.php:59 | a configuration that sets every key is taken as it is |
| MonologConfig.LogPath | src/Integration/MonologFactory.php:103-117 | absolute paths are kept; a path starting with `logs/` goes under the logs directory without that prefix; any other path goes under it as it is |
| MonologConfig.LogPathAbsolute | src/Integration/MonologFactory.php:106-116 | under a logs directory with a leading slash, every resolved path is absolute |
| MonologConfig.LogPathIdempotent | src/Integration/MonologFactory.php:103-117 | when the logs directory starts with a slash, resolving a resolved path again changes nothing (without that leading slash it does not hold: see `LogPathNests`) |
| MonologConfig.LogsPrefixRedundant | src/Integration/MonologFactory.php:111-116 | `logs/x` and `x` resolve to the same file when `x` is relative and does not itself start with `logs/` |
| MonologConfig.LogPathNests | src/Integration/MonologFactory.php:106-116 | when the logs directory joined with a relative path is neither absolute nor starts with `logs/`, resolving the result again nests the logs directory a second time |
| MonologConfig.WindowsLogPathNests | src/Integration/MonologFactory.php:106 | on Windows, with logs directory `C:/app/var/logs`, resolving `app.log` twice gives `C:/app/var/logs/C:/app/var/logs/app.log` |
| MonologConfig.NoDriveSeparator | src/Integration/MonologFactory.php:106 | a path without a backslash never contains the `:\` drive separator |
| MonologConfig.LogsPrefixDroppedOnce | src/Integration/MonologFactory.php:111-113 | exactly one leading `logs/` is dropped when `logs/…` is not itself absolute (on Windows: no `:\` anywhere in it) |
| MonologConfig.CreateHandler | src/Integration/MonologFactory.php:73-95 | the handler rotates exactly when `rotating` is set; level, bubble, permission and locking pass through; a rotating handler gets the resolved path and file count; a stream writes to standard error when asked, else to the resolved path |
| MonologConfig.HandlerIgnores | src/Integration/MonologFactory.php:73-95 | `file_permission` is never read, and `use_stderr` is not read when rotating |
| MonologConfig.CreateLogger | src/Integration/MonologFactory.php:57-65 | the logger is named by the merged configuration and holds its one handler |
| MonologConfig.CreateFileLogger | src/Integration/MonologFactory.php:142-150 | a non-rotating stream on the resolved path, with the defaults for bubble, permission and locking |
| MonologConfig.CreateRotatingLogger | src/Integration/MonologFactory.php:161-170 | a rotating handler on the resolved path with the given file count |
| MonologConfig.CreateConsoleLogger | src/Integration/MonologFactory.php:126-132 | one stream handler on standard output at the given level |
| MonologConfig.DefaultLogger | src/Integration/MonologFactory.php:28-39 | with no configuration the logger is `app`, rotating seven files of `app.log` under the logs directory at debug level |
| MonologConfig.DefaultPathResolves | src/Integration/MonologFactory.php:111-113 | the default `logs/app.log` lands directly under the logs directory |

## Left out

- Multibyte text: the model's characters are bytes, so a path or URL is given as its UTF-8 bytes. Character-level (code point) views of strings are not modelled, and neither is the source.
- Real filesystem access: `is_dir` and `file_exists` are the sets `dirs` and `files`, fixed for one construction. Races between a check and a use are not modelled.
- `PathsProvider`, `PathsMiddleware` and `BasePathMiddleware::process`: container and PSR-15 wiring that only stores or attaches the computed values.
- The `PHP_SAPI` default of the middleware's constructor: the server API name is a parameter of `BasePath.Detect`.
- The testing container, the test bootstrap and the example application.
- `PathsInterface` and `InvalidPathException` hold only declarations. The exception is the `Failure` variant of `PathsRegistry.Construct`'s result.
- Default argument values are not modelled; every argument is passed explicitly. These are:
  - the constructor's `customPaths = []`, `autoDiscover = true` and `validatePaths = false`;
  - `createLogger`'s `config = []`;
  - `validate`'s `strict = false`;
  - the `build` default of `getBuildPath`, `getBuildAssetsPath` and `getViteManifestPath`;
  - the debug-level default of `createFileLogger`, `createRotatingLogger` and `createConsoleLogger`;
  - `createRotatingLogger`'s `maxFiles = 7` and `createConsoleLogger`'s name `console`.
- `getPaths()` is the `entries` field of `PathsRegistry.Paths`: it returns the stored array as it is.
- PhpArray.Merge: integer and numeric-string keys, which `array_merge` renumbers, are not modelled. Every key is a string that is not renumbered.
- Custom path values are strings. Non-string values, which PHP would coerce or reject, are not modelled.
- PhpPath.UrlPath: only origin-form request targets are modelled: the path is everything before the first `?` or `#`. Absolute URLs with a scheme or host, `//` authorities, and malformed URLs for which `parse_url` returns false are not.
- PhpPath.Dirname: only `/` separates names. PHP's Windows build also treats `\` as a separator and handles drive letters.
- MonologConfig.MergeConfig: configuration values are typed (level, integers, booleans). PHP would accept a value of any type under any key.
- MonologConfig.CreateHandler: Monolog's `Logger`, `StreamHandler` and `RotatingFileHandler` are a foreign library. Handlers and loggers are described by values (`Handler`, `LoggerSpec`) holding the constructor arguments.
- MonologConfig.LogPath: `PHP_OS_FAMILY` is the `isWindows` parameter.
- The model records these behaviours of the code without treating them as defects:
  - In request-URI mode, an unset or empty script name gives an empty script directory. Then nothing is cut, and the whole URL path becomes the base path (`BasePath.ByRequestUriNoScript`).
  - A non-empty script name without a slash gives `.` as its directory, so the base path is always empty (`BasePath.ByRequestUriBareScript`).
  - Truncation to the script directory's length does not check that the URL path actually starts with that directory.
  - The `file_permission` setting is never read.
  - On Windows the normalized logs directory (such as `C:/app/var/logs`) has no `:\` and no leading slash. So a resolved log path is not absolute, and resolving it a second time nests it (`MonologConfig.LogPathNests`, `MonologConfig.WindowsLogPathNests`).

=== FILE: base_path.dfy ===
/**
 * Base-path detection for a Slim application: under PHP's built-in
 * server the base path is the directory of the front controller; under
 * any other server it is the request path cut to the length of the
 * directory two levels above the front controller. The server API name
 * and the server parameters are inputs.
 */
module BasePath {
  import opened Wrappers
  import opened Normalizer
  import opened PhpPath

  /** The server parameters the detection reads; `None` when a parameter is unset or null. */
  datatype ServerParams = ServerParams(scriptName: Option<string>, requestUri: Option<string>)

  /** A detected base path is empty or longer than one character. */
  predicate WellFormed(base: string) {
    base == "" || |base| > 1
  }

  /** `getBasePathByScriptName`: the front controller's directory, or "" for the web root. */
  function ByScriptName(params: ServerParams): (r: string)
    ensures WellFormed(r)
    ensures params.scriptName.GetOr("") == "" ==> r == ""
    ensures r != "" ==> r < ReplaceBackslashes(params.scriptName.GetOr(""))
  {
    var script := params.scriptName.GetOr("");
    var dir := Dirname(script);
    var base := ReplaceBackslashes(dir);
    if |base| > 1 then
      PrefixReplaced(dir, script);
      base
    else ""
  }

  /** Replacing backslashes keeps a proper prefix a proper prefix. */
  lemma PrefixReplaced(p: string, s: string)
    requires p < s
    ensures ReplaceBackslashes(p) < ReplaceBackslashes(s)
  {
    assert forall i | 0 <= i < |p| :: ReplaceBackslashes(p)[i] == ReplaceBackslashes(s)[i];
  }

  /** The directory two levels above the front controller, with forward slashes. */
  function ScriptDir(script: string): (r: string)
    ensures |r| <= |script|
    ensures r == ReplaceBackslashes(Dirname(Dirname(script)))
  {
    DirnameTwoLevels(script);
    ReplaceBackslashes(DirnameLevels(script, 2))
  }

  /**
   * `getBasePathByRequestUri`: "" without a request URI or when the
   * front controller sits one level below the root; otherwise the URL path,
   * cut to the script directory's length when that is non-empty.
   */
  function ByRequestUri(params: ServerParams): (r: string)
    ensures WellFormed(r)
    ensures params.requestUri.None? ==> r == ""
    ensures params.requestUri.Some? ==> r <= UrlPath(params.requestUri.value)
    ensures var dir := ScriptDir(params.scriptName.GetOr(""));
            dir != "" ==> |r| <= |dir|
    ensures ScriptDir(params.scriptName.GetOr("")) == "/" ==> r == ""
    ensures var dir := ScriptDir(params.scriptName.GetOr(""));
            params.requestUri.Some? && |dir| > 1 && |UrlPath(params.requestUri.value)| >= |dir| ==> |r| == |dir|
    ensures var dir, path := ScriptDir(params.scriptName.GetOr("")), UrlPath(params.requestUri.GetOr(""));
            params.requestUri.Some? && (dir == "" || (|dir| > 1 && |path| < |dir|)) ==>
              r == if |path| > 1 then path else ""
  {
    if params.requestUri.None? then ""
    else
      var path := UrlPath(params.requestUri.value);
      var dir := ScriptDir(params.scriptName.GetOr(""));
      if dir == "/" then ""
      else
        var base := if |dir| > 0 then path[..if |dir| < |path| then |dir| else |path|] else path;
        if |base| > 1 then base else ""
  }

  /** `detectBasePath`: the built-in server uses the script name, every other server the request URI. */
  function Detect(sapi: string, params: ServerParams): (r: string)
    ensures WellFormed(r)
    ensures sapi == "cli-server" ==> r == ByScriptName(params)
    ensures sapi != "cli-server" ==> r == ByRequestUri(params)
  {
    if sapi == "cli-server" then ByScriptName(params) else ByRequestUri(params)
  }

  /** Under the built-in server the request URI plays no part. */
  lemma CliServerIgnoresUri(params: ServerParams, uri: Option<string>)
    ensures Detect("cli-server", params) == Detect("cli-server", params.(requestUri := uri))
  {
  }

  /**
   * A front controller `dir/name` under the built-in server yields `dir`,
   * without trailing slashes and with backslashes replaced, when that is
   * longer than one character, and "" otherwise (in particular for `/name`).
   */
  lemma ByScriptNameChild(params: ServerParams, dir: string, name: string)
    requires name != "" && NoSlash(name)
    requires params.scriptName == Some(dir + "/" + name)
    ensures var base := ReplaceBackslashes(RTrimSlashes(dir));
            ByScriptName(params) == if |base| > 1 then base else ""
  {
    if RTrimSlashes(dir) == "" {
      assert dir[0..] == dir;
      DirnameTop(dir, name);
    } else {
      DirnameChild(dir, name);
    }
  }

  /** A script name without any slash has "." as its directory, so the base path is "". */
  lemma ByScriptNameBare(params: ServerParams, script: string)
    requires script != "" && NoSlash(script)
    requires params.scriptName == Some(script)
    ensures ByScriptName(params) == ""
  {
  }

  /** A trailing slash on the script name does not change the base path. */
  lemma ByScriptNameTrailing(script: string, uri: Option<string>)
    requires script != ""
    ensures ByScriptName(ServerParams(Some(script + "/"), uri)) == ByScriptName(ServerParams(Some(script), uri))
  {
    DirnameTrailing(script);
  }

  lemma ReplaceClean(s: string)
    requires NoBackslash(s)
    ensures ReplaceBackslashes(s) == s
  {
  }

  /**
   * The intended case: when the script directory is a clean prefix of the
   * URL path and longer than "/", it is exactly the base path.
   */
  lemma ByRequestUriMatches(params: ServerParams, uri: string)
    requires params.requestUri == Some(uri)
    requires var dir := ScriptDir(params.scriptName.GetOr(""));
             |dir| > 1 && dir <= UrlPath(uri)
    ensures ByRequestUri(params) == ScriptDir(params.scriptName.GetOr(""))
  {
  }

  /**
   * The cut does not check the prefix: when the URL path does not start
   * with the script directory, it is still cut to that directory's length,
   * so the base path is a prefix of the URL path but not the directory.
   */
  lemma ByRequestUriMismatch(params: ServerParams, uri: string)
    requires params.requestUri == Some(uri)
    requires var dir := ScriptDir(params.scriptName.GetOr(""));
             |dir| > 1 && |UrlPath(uri)| >= |dir| && !(dir <= UrlPath(uri))
    ensures var dir := ScriptDir(params.scriptName.GetOr(""));
            ByRequestUri(params) == UrlPath(uri)[..|dir|] != dir
  {
  }

  /**
   * Without a script name, or with an empty one, nothing is cut: the whole
   * URL path becomes the base path when it is longer than one character.
   */
  lemma ByRequestUriNoScript(script: Option<string>, uri: string)
    requires script.GetOr("") == ""
    ensures var path := UrlPath(uri);
            ByRequestUri(ServerParams(script, Some(uri))) == if |path| > 1 then path else ""
  {
    assert DirnameLevels("", 2) == "";
  }

  /**
   * A script name with no slash has "." as its directory, so the URL path
   * is cut to one character and the base path is always "".
   */
  lemma ByRequestUriBareScript(script: string, uri: string)
    requires script != "" && NoSlash(script)
    ensures ByRequestUri(ServerParams(Some(script), Some(uri))) == ""
  {
    DirnameTwoLevels(script);
    DirnameFixed(".");
  }

  /** The repository's built-in-server test: the front controller `/index.php` gives "". */
  lemma CliServerExample(name: string)
    requires name == "index.php"
    ensures Detect("cli-server", ServerParams(Some("/" + name), None)) == ""
  {
    assert "" + "/" + name == "/" + name;
    ByScriptNameChild(ServerParams(Some("/" + name), None), "", name);
    assert RTrimSlashes("") == "";
  }

  /**
   * The repository's Apache test: front controller `/my-app/public/index.php`
   * and request `/my-app/users` give `/my-app`.
   */
  lemma ApacheExample(app: string, sub: string, name: string, tail: string)
    requires app == "/my-app" && sub == "public" && name == "index.php" && tail == "/users"
    ensures Detect("apache", ServerParams(Some(app + "/" + sub + "/" + name), Some(app + tail))) == app
  {
    ApacheLiterals(app, sub, name, tail);
    var uri := app + tail;
    ScriptTwoUp(app, sub, name);
    UrlPathClean(uri);
    assert uri[..|app|] == app;
    ByRequestUriMatches(ServerParams(Some(app + "/" + sub + "/" + name), Some(uri)), uri);
  }

  lemma ApacheLiterals(app: string, sub: string, name: string, tail: string)
    requires app == "/my-app" && sub == "public" && name == "index.php" && tail == "/users"
    ensures |app| > 1 && NoBackslash(app) && !EndsWithSlash(app)
    ensures sub != "" && NoSlash(sub) && name != "" && NoSlash(name)
    ensures NoQueryOrFragment(app + tail)
  {
    assert NoQueryOrFragment(app) && NoQueryOrFragment(tail);
    var u := app + tail;
    assert forall i | 0 <= i < |u| :: u[i] == if i < |app| then app[i] else tail[i - |app|];
  }

  /** Two levels above `dir/sub/name` is `dir`. */
  lemma ScriptTwoUp(dir: string, sub: string, name: string)
    requires dir != "" && NoBackslash(dir) && !EndsWithSlash(dir)
    requires sub != "" && NoSlash(sub) && name != "" && NoSlash(name)
    ensures ScriptDir(dir + "/" + sub + "/" + name) == dir
  {
    var mid := dir + "/" + sub;
    DirnameChild(mid, name);
    DirnameChild(dir, sub);
    DirnameTwoLevels(mid + "/" + name);
    ReplaceClean(dir);
  }

  /**
   * The repository's root-path test: front controller `/public/index.php`
   * and request `/users` give "".
   */
  lemma RootPathExample(sub: string, name: string, uri: string)
    requires sub == "public" && name == "index.php" && uri == "/users"
    ensures Detect("apache", ServerParams(Some("/" + sub + "/" + name), Some(uri))) == ""
  {
    assert sub != "" && NoSlash(sub) && name != "" && NoSlash(name);
    ScriptUnderRoot(sub, name);
  }

  /** Two levels above `/sub/name` is the root "/". */
  lemma ScriptUnderRoot(sub: string, name: string)
    requires sub != "" && NoSlash(sub) && name != "" && NoSlash(name)
    ensures ScriptDir("/" + sub + "/" + name) == "/"
  {
    DirnameChild("/" + sub, name);
    assert "" + "/" + sub == "/" + sub;
    DirnameTop("", sub);
    DirnameTwoLevels("/" + sub + "/" + name);
  }

  /** The repository's test without a request URI: "". */
  lemma NoRequestUriExample(script: string)
    requires script == "/public/index.php"
    ensures Detect("apache", ServerParams(Some(script), None)) == ""
  {
  }
}

=== FILE: categories.dfy ===
/**
 * The fixed vocabulary of path categories shared by the registry's
 * default table and the discoverer's pattern table, and the one way both
 * tables are built: one entry per category, in a fixed order.
 */
module Categories {
  import opened Wrappers
  import opened PhpArray

  datatype Category =
    | Root | Config | Resources | Views | Assets | Cache
    | Logs | Public | Database | Migrations | Storage | Tests
  {
    /** The array key the registry stores the category under. */
    function Name(): string {
      match this
      case Root => "root"
      case Config => "config"
      case Resources => "resources"
      case Views => "views"
      case Assets => "assets"
      case Cache => "cache"
      case Logs => "logs"
      case Public => "public"
      case Database => "database"
      case Migrations => "migrations"
      case Storage => "storage"
      case Tests => "tests"
    }

    /** What the registry appends to the root to form the default path. */
    function DefaultSuffix(): string {
      match this
      case Root => ""
      case Config => "/config"
      case Resources => "/resources"
      case Views => "/resources/views"
      case Assets => "/resources/assets"
      case Cache => "/var/cache"
      case Logs => "/var/logs"
      case Public => "/public"
      case Database => "/database"
      case Migrations => "/database/migrations"
      case Storage => "/storage"
      case Tests => "/tests"
    }
  }

  /** The categories in the order of the registry's default table. */
  const All: seq<Category> :=
    [Root, Config, Resources, Views, Assets, Cache, Logs, Public, Database, Migrations, Storage, Tests]

  predicate Distinct(cs: seq<Category>) {
    forall i, j | 0 <= i < j < |cs| :: cs[i] != cs[j]
  }

  function Names(cs: seq<Category>): (ns: seq<string>)
    ensures |ns| == |cs|
    ensures forall i | 0 <= i < |cs| :: ns[i] == cs[i].Name()
  {
    if |cs| == 0 then [] else [cs[0].Name()] + Names(cs[1..])
  }

  /** The key set of the default table. */
  function NameSet(): set<string> {
    set c: Category :: c.Name()
  }

  /** Different categories are stored under different keys. */
  lemma NameInjective(a: Category, b: Category)
    ensures a.Name() == b.Name() ==> a == b
  {
  }

  lemma AllIsComplete(c: Category)
    ensures c in All && Distinct(All)
  {
  }

  /**
   * The array `foreach ($cs as $c) if (value($c) !== null) $found[name($c)] = value($c)`:
   * one entry per category whose value is present, in the order of `cs`.
   */
  function Tabulate(cs: seq<Category>, value: Category -> Option<string>): (r: Entries)
    ensures |r| <= |cs|
  {
    if |cs| == 0 then []
    else
      var rest := Tabulate(cs[1..], value);
      match value(cs[0])
      case Some(v) => [(cs[0].Name(), v)] + rest
      case None => rest
  }

  /** Every key of the table names one of the tabulated categories. */
  lemma {:induction false} TabulateKeys(cs: seq<Category>, value: Category -> Option<string>, k: string)
    ensures k in Keys(Tabulate(cs, value)) ==> exists c :: c in cs && c.Name() == k && value(c).Some?
    decreases |cs|
  {
    if |cs| > 0 {
      TabulateKeys(cs[1..], value, k);
    }
  }

  /** Looking a category up in the table gives its value; categories not tabulated are absent. */
  lemma {:induction false} TabulateLookup(cs: seq<Category>, value: Category -> Option<string>, c: Category)
    requires Distinct(cs)
    ensures Lookup(Tabulate(cs, value), c.Name()) == if c in cs then value(c) else None
    decreases |cs|
  {
    if |cs| > 0 {
      TabulateLookup(cs[1..], value, c);
      if cs[0] != c {
        NameInjective(cs[0], c);
      }
    }
  }

  /** Distinct categories give a table without duplicate keys. */
  lemma {:induction false} TabulateUnique(cs: seq<Category>, value: Category -> Option<string>)
    requires Distinct(cs)
    ensures UniqueKeys(Tabulate(cs, value))
    decreases |cs|
  {
    if |cs| > 0 {
      TabulateUnique(cs[1..], value);
      var rest := Tabulate(cs[1..], value);
      if cs[0].Name() in Keys(rest) {
        TabulateKeys(cs[1..], value, cs[0].Name());
        var c :| c in cs[1..] && c.Name() == cs[0].Name() && value(c).Some?;
        NameInjective(c, cs[0]);
      }
    }
  }

  /** When every category has a value, the table's keys are the names in order. */
  lemma {:induction false} TabulateTotal(cs: seq<Category>, value: Category -> Option<string>)
    requires forall c | c in cs :: value(c).Some?
    ensures KeySeq(Tabulate(cs, value)) == Names(cs)
    decreases |cs|
  {
    if |cs| > 0 {
      TabulateTotal(cs[1..], value);
    }
  }

  /** A table over every category, each with a value, has exactly the category names as keys. */
  lemma TabulateEveryKey(cs: seq<Category>, value: Category -> Option<string>)
    requires Distinct(cs)
    requires forall c: Category :: c in cs && value(c).Some?
    ensures Keys(Tabulate(cs, value)) == NameSet()
  {
    forall k | k in Keys(Tabulate(cs, value)) ensures k in NameSet() {
      TabulateKeys(cs, value, k);
    }
    forall c: Category ensures c.Name() in Keys(Tabulate(cs, value)) {
      TabulateLookup(cs, value, c);
    }
  }
}

=== FILE: discoverer.dfy ===
/**
 * The path discoverer: for each category of a fixed pattern table, the
 * first candidate sub-directory of the root that exists wins; categories
 * with no existing candidate are left out. `is_dir` is the set `dirs`.
 */
module Discoverer {
  import opened Wrappers
  import opened PhpArray
  import opened Categories
  import opened Normalizer

  /** `$root . '/' . $candidate`. */
  function Join(root: string, candidate: string): string {
    root + "/" + candidate
  }

  /**
   * The pattern table's iteration order: config, resources, views, assets,
   * cache, logs, public, database, migrations, storage, tests; that is,
   * the default table's order without the root.
   */
  const PatternOrder: seq<Category> := All[1..]

  /** The candidate sub-directories of a category, highest priority first. */
  function Candidates(c: Category): seq<string> {
    match c
    case Root => []
    case Config => ["config", "app/config", "etc"]
    case Resources => ["resources", "app/resources", "res"]
    case Views => ["resources/views", "templates", "views", "app/views"]
    case Assets => ["resources/assets", "assets", "public/assets"]
    case Cache => ["var/cache", "cache", "tmp/cache", "storage/cache"]
    case Logs => ["var/logs", "logs", "log", "storage/logs"]
    case Public => ["public", "web", "www", "htdocs"]
    case Database => ["database", "db", "storage/database"]
    case Migrations => ["database/migrations", "migrations", "db/migrations"]
    case Storage => ["storage", "var", "data"]
    case Tests => ["tests", "test"]
  }

  /** Candidate `i` exists as a directory and no earlier candidate does. */
  predicate FirstHit(root: string, candidates: seq<string>, dirs: set<string>, i: int) {
    && 0 <= i < |candidates|
    && Join(root, candidates[i]) in dirs
    && forall j | 0 <= j < i :: Join(root, candidates[j]) !in dirs
  }

  /** The first candidate, joined onto the root, that is an existing directory. */
  function FirstValidPath(root: string, candidates: seq<string>, dirs: set<string>): (r: Option<string>)
    ensures r.Some? <==> exists i | 0 <= i < |candidates| :: Join(root, candidates[i]) in dirs
    ensures r.Some? ==> exists i :: FirstHit(root, candidates, dirs, i) && r.value == Join(root, candidates[i])
  {
    if |candidates| == 0 then None
    else if Join(root, candidates[0]) in dirs then
      assert FirstHit(root, candidates, dirs, 0);
      Some(Join(root, candidates[0]))
    else
      var r := FirstValidPath(root, candidates[1..], dirs);
      assert forall i | FirstHit(root, candidates[1..], dirs, i) :: FirstHit(root, candidates, dirs, i + 1);
      r
  }

  /** What discovery finds for one category: nothing for the root, which has no pattern. */
  function Found(root: string, dirs: set<string>, c: Category): (r: Option<string>)
    ensures c == Root ==> r == None
    ensures r.Some? <==> exists i | 0 <= i < |Candidates(c)| :: Join(root, Candidates(c)[i]) in dirs
    ensures r.Some? ==> exists i :: FirstHit(root, Candidates(c), dirs, i) && r.value == Join(root, Candidates(c)[i])
  {
    FirstValidPath(root, Candidates(c), dirs)
  }

  /** The per-category search, as the value function of the discovered table. */
  function FoundOf(root: string, dirs: set<string>): Category -> Option<string> {
    (c: Category) => Found(root, dirs, c)
  }

  /**
   * `discover($rootPath)`: the discovered paths, keyed by category name, in
   * pattern-table order; each category maps to what its search finds.
   */
  function Discover(root: string, dirs: set<string>): (r: Arr)
    ensures forall c: Category :: Lookup(r, c.Name()) == if c == Root then None else Found(root, dirs, c)
  {
    PatternOrderSpec(Root);
    TabulateUnique(PatternOrder, FoundOf(root, dirs));
    DiscoverTable(root, dirs);
    Tabulate(PatternOrder, FoundOf(root, dirs))
  }

  lemma DiscoverTable(root: string, dirs: set<string>)
    ensures forall c: Category :: Lookup(Tabulate(PatternOrder, FoundOf(root, dirs)), c.Name())
                                  == if c == Root then None else Found(root, dirs, c)
  {
    forall c: Category
      ensures Lookup(Tabulate(PatternOrder, FoundOf(root, dirs)), c.Name()) == if c == Root then None else Found(root, dirs, c)
    {
      PatternOrderSpec(c);
      TabulateLookup(PatternOrder, FoundOf(root, dirs), c);
    }
  }

  /** Only pattern categories are ever discovered: never the root, never an unknown key. */
  lemma DiscoverKeys(root: string, dirs: set<string>)
    ensures Keys(Discover(root, dirs)) <= NameSet() - {"root"}
  {
    forall k | k in Keys(Discover(root, dirs)) ensures k in NameSet() - {"root"} {
      DiscoveredKey(root, dirs, k);
    }
  }

  lemma DiscoveredKey(root: string, dirs: set<string>, k: string)
    requires k in Keys(Discover(root, dirs))
    ensures exists c: Category :: c != Root && c.Name() == k
  {
    TabulateKeys(PatternOrder, FoundOf(root, dirs), k);
    var c :| c in PatternOrder && c.Name() == k;
    PatternOrderSpec(c);
  }

  lemma PatternOrderSpec(c: Category)
    ensures c in PatternOrder <==> c != Root
    ensures Distinct(PatternOrder)
  {
    AllIsComplete(c);
  }

  /**
   * Each category's discovered entry is what its candidate search finds;
   * the root has none. This repeats `Discover`'s postcondition as a lemma
   * to call for one category.
   */
  lemma DiscoverLookup(root: string, dirs: set<string>, c: Category)
    ensures Lookup(Discover(root, dirs), c.Name()) == if c == Root then None else Found(root, dirs, c)
  {
  }

  /**
   * A category is discovered exactly when one of its candidates exists,
   * and then it maps to the first existing candidate; the root never is.
   */
  lemma DiscoverSpec(root: string, dirs: set<string>, c: Category)
    ensures c.Name() in Keys(Discover(root, dirs)) <==>
              c != Root && exists i | 0 <= i < |Candidates(c)| :: Join(root, Candidates(c)[i]) in dirs
    ensures forall v :: Lookup(Discover(root, dirs), c.Name()) == Some(v) ==>
              exists i :: FirstHit(root, Candidates(c), dirs, i) && v == Join(root, Candidates(c)[i])
  {
    DiscoverLookup(root, dirs, c);
  }

  /** With no candidate directory at all, nothing is discovered. */
  lemma DiscoverNothing(root: string, dirs: set<string>)
    requires forall c: Category :: Found(root, dirs, c) == None
    ensures Discover(root, dirs) == []
  {
    DiscoverKeys(root, dirs);
    var r := Discover(root, dirs);
    if r != [] {
      ForgetKey(root, dirs, r[0].0);
    }
  }

  /** A key of the discovered table names a category whose search found something. */
  lemma ForgetKey(root: string, dirs: set<string>, k: string)
    requires k in Keys(Discover(root, dirs))
    ensures exists c: Category :: c.Name() == k && Found(root, dirs, c).Some?
  {
    DiscoveredKey(root, dirs, k);
    var c: Category :| c != Root && c.Name() == k;
    DiscoverLookup(root, dirs, c);
  }

  /** `resources/views` is preferred over `templates` for the views category. */
  lemma ViewsPriority(root: string, dirs: set<string>)
    requires Join(root, "resources/views") in dirs
    ensures Lookup(Discover(root, dirs), "views") == Some(Join(root, "resources/views"))
  {
    DiscoverLookup(root, dirs, Views);
  }

  /**
   * The repository's discovery test: with `config`, `resources/views`
   * (and so `resources`) and `public` under the root, exactly those four
   * categories are found, at their root-joined paths.
   */
  lemma DiscoverExample(root: string, dirs: set<string>)
    requires dirs == {Join(root, "config"), Join(root, "resources"), Join(root, "resources/views"), Join(root, "public")}
    ensures Lookup(Discover(root, dirs), "config") == Some(Join(root, "config"))
    ensures Lookup(Discover(root, dirs), "resources") == Some(Join(root, "resources"))
    ensures Lookup(Discover(root, dirs), "views") == Some(Join(root, "resources/views"))
    ensures Lookup(Discover(root, dirs), "public") == Some(Join(root, "public"))
    ensures Keys(Discover(root, dirs)) == {"config", "resources", "views", "public"}
  {
    DiscoverLookup(root, dirs, Config);
    DiscoverLookup(root, dirs, Resources);
    DiscoverLookup(root, dirs, Views);
    DiscoverLookup(root, dirs, Public);
    DiscoverExampleKeys(root, dirs);
    ExactlyFour(Keys(Discover(root, dirs)), "config", "resources", "views", "public");
  }

  /** Under that test's directories, nothing but the four listed categories is discovered. */
  lemma DiscoverExampleKeys(root: string, dirs: set<string>)
    requires dirs == {Join(root, "config"), Join(root, "resources"), Join(root, "resources/views"), Join(root, "public")}
    ensures Keys(Discover(root, dirs)) <= {"config", "resources", "views", "public"}
  {
    var names := {"config", "resources", "views", "public"};
    forall c: Category | Found(root, dirs, c).Some? ensures c.Name() in names {
      OnlyListedFound(root, dirs, c);
    }
    DiscoverWithin(root, dirs, names);
  }

  /** Only categories whose search finds something are discovered. */
  lemma DiscoverWithin(root: string, dirs: set<string>, names: set<string>)
    requires forall c: Category :: Found(root, dirs, c).Some? ==> c.Name() in names
    ensures Keys(Discover(root, dirs)) <= names
  {
    forall k | k in Keys(Discover(root, dirs)) ensures k in names {
      ForgetKey(root, dirs, k);
    }
  }

  lemma ExactlyFour(ks: set<string>, a: string, b: string, c: string, d: string)
    requires a in ks && b in ks && c in ks && d in ks
    requires ks <= {a, b, c, d}
    ensures ks == {a, b, c, d}
  {
  }

  /** Under that test's directories, only the four listed categories have a hit. */
  lemma OnlyListedFound(root: string, dirs: set<string>, c: Category)
    requires dirs == {Join(root, "config"), Join(root, "resources"), Join(root, "resources/views"), Join(root, "public")}
    requires Found(root, dirs, c).Some?
    ensures c in {Config, Resources, Views, Public}
  {
    if c !in {Config, Resources, Views, Public} {
      Unlisted(c);
      forall i | 0 <= i < |Candidates(c)| ensures Join(root, Candidates(c)[i]) !in dirs {
        var x := Candidates(c)[i];
        JoinInjective(root, x, "config");
        JoinInjective(root, x, "resources");
        JoinInjective(root, x, "resources/views");
        JoinInjective(root, x, "public");
      }
    }
  }

  /** No other category lists one of those four sub-directories among its candidates. */
  lemma Unlisted(c: Category)
    requires c !in {Config, Resources, Views, Public}
    ensures forall i | 0 <= i < |Candidates(c)| :: Candidates(c)[i] !in {"config", "resources", "resources/views", "public"}
  {
  }

  /** Joining onto the same root is injective. */
  lemma JoinInjective(root: string, a: string, b: string)
    ensures Join(root, a) == Join(root, b) ==> a == b
  {
    if Join(root, a) == Join(root, b) {
      assert a == Join(root, a)[|root| + 1..];
      assert b == Join(root, b)[|root| + 1..];
    }
  }

  /** Discovery takes the first candidate when it exists; a clean root keeps it clean. */
  lemma FoundFirst(root: string, dirs: set<string>, c: Category, first: string)
    requires IsNormalized(root)
    requires |Candidates(c)| > 0 && Candidates(c)[0] == first && IsNormalized(first) && first != ""
    requires Join(root, first) in dirs
    ensures Found(root, dirs, c) == Some(Join(root, first))
    ensures Normalize(Join(root, first)) == Join(root, first)
  {
    NormalizeJoin(root + "/", first);
  }

  /** Discovery takes the second candidate when it exists and the first does not. */
  lemma FoundSecond(root: string, dirs: set<string>, c: Category, first: string, second: string)
    requires IsNormalized(root)
    requires |Candidates(c)| > 1 && Candidates(c)[0] == first && Candidates(c)[1] == second
    requires IsNormalized(second) && second != ""
    requires Join(root, first) !in dirs && Join(root, second) in dirs
    ensures Found(root, dirs, c) == Some(Join(root, second))
    ensures Normalize(Join(root, second)) == Join(root, second)
  {
    assert Candidates(c)[1..][0] == second;
    NormalizeJoin(root + "/", second);
  }
}

=== FILE: monolog.dfy ===
/**
 * The logger factory: a caller's configuration is merged over fixed
 * defaults, the log file path is resolved against the registry's logs
 * directory, and one handler is chosen (rotating file or stream). Loggers
 * and handlers are described by values rather than created; the host OS
 * family is an input.
 */
module MonologConfig {
  import opened Wrappers
  import opened Normalizer
  import opened Categories
  import opened PathsRegistry

  /** The logging levels, lowest first. */
  datatype Level = Debug | Info | Notice | Warning | Error | Critical | Alert | Emergency

  /** A complete logger configuration (every key of the default array). */
  datatype LogConfig = LogConfig(
    name: string,
    path: string,
    level: Level,
    rotating: bool,
    maxFiles: int,
    bubble: bool,
    permission: Option<int>,
    locking: bool,
    filePermission: Option<int>,
    useStderr: bool)

  /**
   * A caller's configuration array: `None` where the key is absent. The two
   * nullable keys are present-with-null as `Some(None)`.
   */
  datatype Overrides = Overrides(
    name: Option<string>,
    path: Option<string>,
    level: Option<Level>,
    rotating: Option<bool>,
    maxFiles: Option<int>,
    bubble: Option<bool>,
    permission: Option<Option<int>>,
    locking: Option<bool>,
    filePermission: Option<Option<int>>,
    useStderr: Option<bool>)

  const DefaultConfig: LogConfig := LogConfig("app", "logs/app.log", Debug, true, 7, true, None, false, None, false)

  const NoOverrides: Overrides := Overrides(None, None, None, None, None, None, None, None, None, None)

  /** Every key given: the overrides that spell out `c` completely. */
  function Full(c: LogConfig): Overrides {
    Overrides(Some(c.name), Some(c.path), Some(c.level), Some(c.rotating), Some(c.maxFiles),
              Some(c.bubble), Some(c.permission), Some(c.locking), Some(c.filePermission), Some(c.useStderr))
  }

  /**
   * `array_merge($defaultConfig, $config)`: each given key replaces the
   * default. The configuration is a record rather than a `PhpArray.Arr`
   * because its ten keys are fixed and its values are not strings; a
   * `Some` field is a key present in `$config`.
   */
  function MergeConfig(o: Overrides): (c: LogConfig)
    ensures o.name.Some? ==> c.name == o.name.value
    ensures o.name.None? ==> c.name == DefaultConfig.name
    ensures o.path.Some? ==> c.path == o.path.value
    ensures o.path.None? ==> c.path == DefaultConfig.path
    ensures o.rotating.Some? ==> c.rotating == o.rotating.value
    ensures o.rotating.None? ==> c.rotating == DefaultConfig.rotating
    ensures o.level.Some? ==> c.level == o.level.value
    ensures o.level.None? ==> c.level == DefaultConfig.level
    ensures o.maxFiles.Some? ==> c.maxFiles == o.maxFiles.value
    ensures o.maxFiles.None? ==> c.maxFiles == DefaultConfig.maxFiles
    ensures o.bubble.Some? ==> c.bubble == o.bubble.value
    ensures o.bubble.None? ==> c.bubble == DefaultConfig.bubble
    ensures o.permission.Some? ==> c.permission == o.permission.value
    ensures o.permission.None? ==> c.permission == DefaultConfig.permission
    ensures o.locking.Some? ==> c.locking == o.locking.value
    ensures o.locking.None? ==> c.locking == DefaultConfig.locking
    ensures o.filePermission.Some? ==> c.filePermission == o.filePermission.value
    ensures o.filePermission.None? ==> c.filePermission == DefaultConfig.filePermission
    ensures o.useStderr.Some? ==> c.useStderr == o.useStderr.value
    ensures o.useStderr.None? ==> c.useStderr == DefaultConfig.useStderr
  {
    LogConfig(
      o.name.GetOr(DefaultConfig.name),
      o.path.GetOr(DefaultConfig.path),
      o.level.GetOr(DefaultConfig.level),
      o.rotating.GetOr(DefaultConfig.rotating),
      o.maxFiles.GetOr(DefaultConfig.maxFiles),
      o.bubble.GetOr(DefaultConfig.bubble),
      o.permission.GetOr(DefaultConfig.permission),
      o.locking.GetOr(DefaultConfig.locking),
      o.filePermission.GetOr(DefaultConfig.filePermission),
      o.useStderr.GetOr(DefaultConfig.useStderr))
  }

  /** An empty configuration array yields the defaults. */
  lemma MergeNothing()
    ensures MergeConfig(NoOverrides) == DefaultConfig
  {
  }

  /** A configuration array that sets every key is taken as it is. */
  lemma MergeEverything(c: LogConfig)
    ensures MergeConfig(Full(c)) == c
  {
  }

  predicate StartsWith(s: string, prefix: string) {
    prefix <= s
  }

  /** `strpos($path, ':\\') !== false`: the path holds a drive separator. */
  predicate HasDriveSeparator(s: string) {
    exists i | 0 <= i < |s| - 1 :: s[i] == ':' && s[i + 1] == '\\'
  }

  /** An absolute path in the factory's sense: a leading slash, or on Windows a drive separator. */
  predicate IsAbsolute(path: string, isWindows: bool) {
    StartsWithSlash(path) || (isWindows && HasDriveSeparator(path))
  }

  /**
   * `getLogPath($path)`: absolute paths are kept; otherwise the path is
   * placed under the logs directory, dropping one leading `logs/`.
   */
  function LogPath(p: Paths, path: string, isWindows: bool): (r: string)
    requires Valid(p)
    ensures IsAbsolute(path, isWindows) ==> r == path
    ensures !IsAbsolute(path, isWindows) ==>
              exists rel :: r == Get(p, Logs) + "/" + rel && (path == rel || path == "logs/" + rel)
    ensures !IsAbsolute(path, isWindows) && StartsWith(path, "logs/") ==> r == Get(p, Logs) + "/" + path[5..]
    ensures !IsAbsolute(path, isWindows) && !StartsWith(path, "logs/") ==> r == Get(p, Logs) + "/" + path
  {
    if IsAbsolute(path, isWindows) then path
    else if StartsWith(path, "logs/") then
      assert path == "logs/" + path[5..];
      Get(p, Logs) + "/" + path[5..]
    else Get(p, Logs) + "/" + path
  }

  /** Below a logs directory with a leading slash, every resolved log path is absolute. */
  lemma LogPathAbsolute(p: Paths, path: string, isWindows: bool)
    requires Valid(p) && StartsWithSlash(Get(p, Logs))
    ensures IsAbsolute(LogPath(p, path, isWindows), isWindows)
  {
    if !IsAbsolute(path, isWindows) {
      assert LogPath(p, path, isWindows)[0] == Get(p, Logs)[0];
    }
  }

  /** Resolving a resolved path again changes nothing, given a logs directory with a leading slash. */
  lemma LogPathIdempotent(p: Paths, path: string, isWindows: bool)
    requires Valid(p) && StartsWithSlash(Get(p, Logs))
    ensures LogPath(p, LogPath(p, path, isWindows), isWindows) == LogPath(p, path, isWindows)
  {
    LogPathAbsolute(p, path, isWindows);
  }

  /** A `logs/` prefix on a relative path is redundant: `logs/x` and `x` land in the same place. */
  lemma LogsPrefixRedundant(p: Paths, rel: string, isWindows: bool)
    requires Valid(p)
    requires !IsAbsolute("logs/" + rel, isWindows) && !IsAbsolute(rel, isWindows)
    requires !StartsWith(rel, "logs/")
    ensures LogPath(p, "logs/" + rel, isWindows) == LogPath(p, rel, isWindows) == Get(p, Logs) + "/" + rel
  {
    var path := "logs/" + rel;
    assert StartsWith(path, "logs/");
    assert path[5..] == rel;
  }

  /**
   * Without a leading slash on the logs directory, a resolved path is
   * relative again and a second resolution nests it: on Windows the
   * normalized `C:/app/var/logs` has no `:\`, so it is not absolute.
   */
  lemma LogPathNests(p: Paths, rel: string, isWindows: bool)
    requires Valid(p)
    requires !IsAbsolute(rel, isWindows) && !StartsWith(rel, "logs/")
    requires var once := Get(p, Logs) + "/" + rel;
             !IsAbsolute(once, isWindows) && !StartsWith(once, "logs/")
    ensures var once := LogPath(p, rel, isWindows);
            once == Get(p, Logs) + "/" + rel
            && LogPath(p, once, isWindows) == Get(p, Logs) + "/" + once != once
  {
  }

  /** A Windows registry rooted at `C:\app` resolves `app.log` twice into a nested path. */
  lemma WindowsLogPathNests(p: Paths, logs: string, name: string)
    requires logs == "C:/app/var/logs" && name == "app.log"
    requires Valid(p) && Get(p, Logs) == logs
    ensures LogPath(p, LogPath(p, name, true), true) == logs + "/" + logs + "/" + name
  {
    WindowsLiterals(logs, name);
    LogPathNests(p, name, true);
  }

  lemma WindowsLiterals(logs: string, name: string)
    requires logs == "C:/app/var/logs" && name == "app.log"
    ensures !IsAbsolute(name, true) && !StartsWith(name, "logs/")
    ensures !IsAbsolute(logs + "/" + name, true) && !StartsWith(logs + "/" + name, "logs/")
  {
    assert NoBackslash(logs) && NoBackslash(name);
    var once := logs + "/" + name;
    assert NoBackslash(once);
    NoDriveSeparator(name);
    NoDriveSeparator(once);
    assert name[0] == 'a' && once[0] == 'C';
  }

  /** Without a backslash there is no `:\` either. */
  lemma NoDriveSeparator(s: string)
    requires NoBackslash(s)
    ensures !HasDriveSeparator(s)
  {
  }

  /** Exactly one leading `logs/` is dropped, whatever follows it (`logs/logs/a.log` keeps the second). */
  lemma LogsPrefixDroppedOnce(p: Paths, rel: string, isWindows: bool)
    requires Valid(p)
    requires !IsAbsolute("logs/" + rel, isWindows)
    ensures LogPath(p, "logs/" + rel, isWindows) == Get(p, Logs) + "/" + rel
  {
    assert ("logs/" + rel)[5..] == rel;
  }

  /** A handler description: the constructor and the arguments it receives. */
  datatype Handler =
    | RotatingFile(filename: string, maxFiles: int, level: Level, bubble: bool,
                   permission: Option<int>, locking: bool)
    | Stream(target: string, level: Level, bubble: bool, permission: Option<int>, locking: bool)

  /** A logger description: its channel name and its handler stack. */
  datatype LoggerSpec = LoggerSpec(name: string, handlers: seq<Handler>)

  const StderrTarget: string := "php://stderr"
  const StdoutTarget: string := "php://stdout"

  /**
   * `createHandler($config)`: a rotating file handler when `rotating`, else a
   * stream handler on standard error or on the log file.
   */
  function CreateHandler(p: Paths, c: LogConfig, isWindows: bool): (h: Handler)
    requires Valid(p)
    ensures h.RotatingFile? <==> c.rotating
    ensures h.level == c.level && h.bubble == c.bubble
    ensures h.permission == c.permission && h.locking == c.locking
    ensures h.RotatingFile? ==> h.filename == LogPath(p, c.path, isWindows) && h.maxFiles == c.maxFiles
    ensures h.Stream? ==> h.target == if c.useStderr then StderrTarget else LogPath(p, c.path, isWindows)
  {
    var logPath := LogPath(p, c.path, isWindows);
    if c.rotating then RotatingFile(logPath, c.maxFiles, c.level, c.bubble, c.permission, c.locking)
    else Stream(if c.useStderr then StderrTarget else logPath, c.level, c.bubble, c.permission, c.locking)
  }

  /** The `file_permission` key is never read, and `use_stderr` not when rotating. */
  lemma HandlerIgnores(p: Paths, c: LogConfig, isWindows: bool, fp: Option<int>, stderr: bool)
    requires Valid(p)
    ensures CreateHandler(p, c.(filePermission := fp), isWindows) == CreateHandler(p, c, isWindows)
    ensures c.rotating ==> CreateHandler(p, c.(useStderr := stderr), isWindows) == CreateHandler(p, c, isWindows)
  {
  }

  /** `createLogger($config)`: a logger named by the merged configuration with its one handler. */
  function CreateLogger(p: Paths, o: Overrides, isWindows: bool): (r: LoggerSpec)
    requires Valid(p)
    ensures r.name == MergeConfig(o).name
    ensures |r.handlers| == 1 && r.handlers[0] == CreateHandler(p, MergeConfig(o), isWindows)
  {
    var c := MergeConfig(o);
    LoggerSpec(c.name, [CreateHandler(p, c, isWindows)])
  }

  /** `createFileLogger($name, $path, $level)`: a stream on the resolved file with default options. */
  function CreateFileLogger(p: Paths, name: string, path: string, level: Level, isWindows: bool): (r: LoggerSpec)
    requires Valid(p)
    ensures r == LoggerSpec(name, [Stream(LogPath(p, path, isWindows), level, true, None, false)])
  {
    CreateLogger(p, NoOverrides.(name := Some(name), path := Some(path), level := Some(level), rotating := Some(false)), isWindows)
  }

  /** `createRotatingLogger($name, $path, $maxFiles, $level)`: rotation with the given file count. */
  function CreateRotatingLogger(p: Paths, name: string, path: string, maxFiles: int, level: Level, isWindows: bool)
    : (r: LoggerSpec)
    requires Valid(p)
    ensures r == LoggerSpec(name, [RotatingFile(LogPath(p, path, isWindows), maxFiles, level, true, None, false)])
  {
    CreateLogger(p, NoOverrides.(name := Some(name), path := Some(path), level := Some(level),
                                 rotating := Some(true), maxFiles := Some(maxFiles)), isWindows)
  }

  /** `createConsoleLogger($name, $level)`: a stream on standard output with default options. */
  function CreateConsoleLogger(name: string, level: Level): (r: LoggerSpec)
    ensures r.name == name && |r.handlers| == 1
    ensures r.handlers[0].Stream? && r.handlers[0].target == StdoutTarget && r.handlers[0].level == level
  {
    LoggerSpec(name, [Stream(StdoutTarget, level, true, None, false)])
  }

  /**
   * With no configuration the logger is `app`, rotating seven files of
   * `app.log` under the logs directory at debug level.
   */
  lemma DefaultLogger(p: Paths, isWindows: bool)
    requires Valid(p)
    ensures CreateLogger(p, NoOverrides, isWindows)
            == LoggerSpec("app", [RotatingFile(Get(p, Logs) + "/app.log", 7, Debug, true, None, false)])
  {
    MergeNothing();
    DefaultPathResolves(p, DefaultConfig.path, isWindows);
  }

  lemma DefaultPathResolves(p: Paths, path: string, isWindows: bool)
    requires Valid(p) && path == "logs/app.log"
    ensures LogPath(p, path, isWindows) == Get(p, Logs) + "/app.log"
  {
    assert !HasDriveSeparator(path) by {
      forall i | 0 <= i < |path| - 1 ensures !(path[i] == ':' && path[i + 1] == '\\') {
      }
    }
    assert !StartsWithSlash(path) by { assert path[0] == 'l'; }
    assert StartsWith(path, "logs/") && path[5..] == "app.log";
  }
}

=== FILE: normalizer.dfy ===
/**
 * The path normalizer: `rtrim(str_replace('\\', '/', $path), '/')`.
 * Backslashes become forward slashes, then every trailing slash is
 * removed, so "/" and "///" both normalize to "".
 */
module Normalizer {

  predicate NoBackslash(s: string) {
    forall i | 0 <= i < |s| :: s[i] != '\\'
  }

  predicate AllSlashes(s: string) {
    forall i | 0 <= i < |s| :: s[i] == '/'
  }

  predicate EndsWithSlash(s: string) {
    |s| > 0 && s[|s| - 1] == '/'
  }

  predicate StartsWithSlash(s: string) {
    |s| > 0 && s[0] == '/'
  }

  /** The strings the normalizer returns: forward slashes only, no trailing slash. */
  predicate IsNormalized(s: string) {
    NoBackslash(s) && !EndsWithSlash(s)
  }

  /** `str_replace('\\', '/', $s)`. */
  function ReplaceBackslashes(s: string): (r: string)
    ensures |r| == |s|
    ensures forall i | 0 <= i < |s| :: r[i] == if s[i] == '\\' then '/' else s[i]
  {
    if |s| == 0 then []
    else [if s[0] == '\\' then '/' else s[0]] + ReplaceBackslashes(s[1..])
  }

  /**
   * `rtrim($s, '/')`: the longest prefix of `s` that does not end with a
   * slash and is followed only by slashes.
   */
  function RTrimSlashes(s: string): (r: string)
    ensures r <= s
    ensures !EndsWithSlash(r)
    ensures AllSlashes(s[|r|..])
  {
    if EndsWithSlash(s) then
      var r := RTrimSlashes(s[..|s| - 1]);
      assert s[|r|..] == s[..|s| - 1][|r|..] + ['/'];
      r
    else s
  }

  /**
   * `ltrim($s, '/')`: the longest suffix of `s` that does not start with a
   * slash and is preceded only by slashes.
   */
  function LTrimSlashes(s: string): (r: string)
    ensures |r| <= |s| && r == s[|s| - |r|..]
    ensures !StartsWithSlash(r)
    ensures AllSlashes(s[..|s| - |r|])
  {
    if StartsWithSlash(s) then
      var t := s[1..];
      var r := LTrimSlashes(t);
      assert t[|t| - |r|..] == s[|s| - |r|..];
      assert s[..|s| - |r|] == ['/'] + t[..|t| - |r|];
      r
    else s
  }

  function Normalize(path: string): (r: string)
    ensures IsNormalized(r)
    ensures |r| <= |path|
    ensures r <= ReplaceBackslashes(path)
    ensures AllSlashes(ReplaceBackslashes(path)[|r|..])
  {
    var r := RTrimSlashes(ReplaceBackslashes(path));
    assert forall i | 0 <= i < |r| :: r[i] == ReplaceBackslashes(path)[i];
    r
  }

  /** The contract of `RTrimSlashes` determines its result: there is only one such prefix. */
  lemma RTrimSlashesUnique(s: string, r: string)
    requires r <= s && !EndsWithSlash(r) && AllSlashes(s[|r|..])
    ensures RTrimSlashes(s) == r
  {
  }

  /** The strings that normalize to themselves are exactly the normalized ones. */
  lemma NormalizeFixedPoint(s: string)
    ensures Normalize(s) == s <==> IsNormalized(s)
  {
    if IsNormalized(s) {
      assert ReplaceBackslashes(s) == s;
      RTrimSlashesUnique(s, s);
    }
  }

  /** Normalizing twice is normalizing once. */
  lemma NormalizeIdempotent(path: string)
    ensures Normalize(Normalize(path)) == Normalize(path)
  {
    NormalizeFixedPoint(Normalize(path));
  }

  /**
   * Appending a normalized, non-empty tail to a backslash-free head
   * yields a normalized path: the registry's default paths are already
   * normalized.
   */
  lemma NormalizeJoin(head: string, tail: string)
    requires NoBackslash(head) && IsNormalized(tail) && tail != ""
    ensures Normalize(head + tail) == head + tail
  {
    NormalizeFixedPoint(head + tail);
  }

  lemma ReplaceBackslashesCons(c: char, s: string)
    requires c != '\\'
    ensures ReplaceBackslashes([c] + s) == [c] + ReplaceBackslashes(s)
  {
    assert ([c] + s)[1..] == s;
  }

  lemma ReplaceBackslashesSnoc(s: string, c: char)
    ensures ReplaceBackslashes(s + [c]) == ReplaceBackslashes(s) + [if c == '\\' then '/' else c]
  {
  }

  /** A leading slash on the input survives normalization unless nothing else does. */
  lemma NormalizeLeadingSlash(x: string)
    ensures Normalize("/" + x) == if Normalize(x) == "" then "" else "/" + Normalize(x)
  {
    var y := ReplaceBackslashes(x);
    ReplaceBackslashesCons('/', x);
    var n := Normalize(x);
    if n == "" {
      assert AllSlashes(("/" + y)[0..]);
      RTrimSlashesUnique("/" + y, "");
    } else {
      assert ("/" + y)[|"/" + n|..] == y[|n|..];
      RTrimSlashesUnique("/" + y, "/" + n);
    }
  }

  /** Leading slashes do not matter once the result is left-trimmed. */
  lemma {:induction false} LTrimNormalizeLeadingSlash(x: string)
    ensures LTrimSlashes(Normalize("/" + x)) == LTrimSlashes(Normalize(x))
  {
    NormalizeLeadingSlash(x);
    if Normalize(x) != "" {
      assert ("/" + Normalize(x))[1..] == Normalize(x);
    }
  }

  /** Trailing slashes on the input never matter. */
  lemma NormalizeTrailingSlash(x: string)
    ensures Normalize(x + "/") == Normalize(x)
  {
    var y := ReplaceBackslashes(x);
    assert ReplaceBackslashes(x + "/") == y + "/";
    assert (y + "/")[..|y|] == y;
  }

  /** Two inputs that agree once backslashes are replaced normalize alike. */
  lemma NormalizeAfterReplace(path: string, clean: string)
    requires ReplaceBackslashes(path) == clean
    ensures Normalize(path) == Normalize(clean)
  {
    NormalizeFixedPoint(clean);
    assert ReplaceBackslashes(clean) == clean;
  }

  /** The cases the repository's normalizer test spells out, for Unix paths. */
  lemma NormalizeUnixExamples(app: string)
    requires app == "/var/www/app"
    ensures Normalize(app) == app
    ensures Normalize(app + "/") == app
  {
    NormalizeFixedPoint(app);
    NormalizeTrailingSlash(app);
  }

  /** The same test's Windows paths: backslashes become slashes. */
  lemma ReplaceWindowsExample(win: string, unix: string)
    requires win == "C:\\path\\to\\project" && unix == "C:/path/to/project"
    ensures ReplaceBackslashes(win) == unix
  {
  }

  /** The same test's Windows cases, with and without a trailing separator. */
  lemma NormalizeWindowsExamples(win: string, unix: string)
    requires win == "C:\\path\\to\\project" && unix == "C:/path/to/project"
    ensures Normalize(win) == unix
    ensures Normalize(win + "\\") == unix
    ensures Normalize(unix + "/") == unix
  {
    NormalizeFixedPoint(unix);
    NormalizeTrailingSlash(unix);
    ReplaceWindowsExample(win, unix);
    NormalizeAfterReplace(win, unix);
    ReplaceBackslashesSnoc(win, '\\');
    NormalizeAfterReplace(win + "\\", unix + "/");
  }

  lemma NormalizeRootExample()
    ensures Normalize("/") == "" && Normalize("///") == ""
  {
  }
}

=== FILE: paths_registry.dfy ===
/**
 * The path registry: a root directory plus an ordered map from category
 * keys to normalized paths, built as
 *   array_merge(defaults, discovered, custom), every value normalized,
 *   then (optionally) strictly validated.
 * `is_dir` is the set `dirs` and `file_exists` the set `files`.
 */
module PathsRegistry {
  import opened Wrappers
  import opened PhpArray
  import opened Categories
  import opened Normalizer
  import opened Discoverer
  import opened Validator

  /** A constructed registry: the normalized root and the resolved paths. */
  datatype Paths = Paths(rootPath: string, entries: Entries)

  /** What construction guarantees: a proper array holding every built-in category. */
  predicate Valid(p: Paths) {
    UniqueKeys(p.entries) && forall c: Category :: c.Name() in Keys(p.entries)
  }

  function NormalizeOpt(o: Option<string>): Option<string> {
    match o
    case Some(v) => Some(Normalize(v))
    case None => None
  }

  /** The default path of each category under `root`. */
  function DefaultOf(root: string): Category -> Option<string> {
    (c: Category) => Some(root + c.DefaultSuffix())
  }

  /** The twelve default entries: the root followed by each category's fixed suffix. */
  function DefaultPaths(root: string): (r: Arr)
    ensures Keys(r) == NameSet()
    ensures KeySeq(r) == Names(All)
  {
    var value := DefaultOf(root);
    AllIsComplete(Root);
    TabulateUnique(All, value);
    TabulateTotal(All, value);
    var r := Tabulate(All, value);
    DefaultKeys(root, r);
    r
  }

  lemma DefaultKeys(root: string, r: Entries)
    requires r == Tabulate(All, DefaultOf(root))
    ensures Keys(r) == NameSet()
  {
    forall c: Category ensures c in All && DefaultOf(root)(c).Some? {
      AllIsComplete(c);
    }
    AllIsComplete(Root);
    TabulateEveryKey(All, DefaultOf(root));
  }

  /** Each category's default is the root followed by its suffix. */
  lemma DefaultLookup(root: string, c: Category)
    ensures Lookup(Tabulate(All, DefaultOf(root)), c.Name()) == Some(root + c.DefaultSuffix())
  {
    AllIsComplete(c);
    TabulateLookup(All, DefaultOf(root), c);
  }

  /** `foreach ($paths as $key => $path) $paths[$key] = normalize($path)`. */
  function NormalizeValues(m: Entries): (r: Entries)
    ensures |r| == |m|
    ensures forall i | 0 <= i < |m| :: r[i] == (m[i].0, Normalize(m[i].1))
  {
    if |m| == 0 then [] else [(m[0].0, Normalize(m[0].1))] + NormalizeValues(m[1..])
  }

  /** Normalizing the values keeps the keys, their order and their lookups (normalized). */
  lemma {:induction false} NormalizeValuesLookup(m: Entries, k: string)
    ensures KeySeq(NormalizeValues(m)) == KeySeq(m)
    ensures Keys(NormalizeValues(m)) == Keys(m)
    ensures Lookup(NormalizeValues(m), k) == NormalizeOpt(Lookup(m, k))
    decreases |m|
  {
    if |m| > 0 {
      NormalizeValuesLookup(m[1..], k);
      assert NormalizeValues(m)[1..] == NormalizeValues(m[1..]);
    }
  }

  /** The discovered entries, or none when discovery is off. */
  function Discovered(root: string, autoDiscover: bool, dirs: set<string>): (r: Arr)
    ensures !autoDiscover ==> r == []
    ensures Keys(r) <= NameSet() - {"root"}
  {
    if autoDiscover then
      DiscoverKeys(root, dirs);
      Discover(root, dirs)
    else []
  }

  /** `array_merge($defaults, $discovered, $custom)`: later layers win. */
  function Layered(defaults: Arr, discovered: Arr, custom: Arr): (r: Arr)
    ensures Keys(r) == Keys(defaults) + Keys(discovered) + Keys(custom)
  {
    MergeUnique(defaults, discovered);
    MergeUnique(Merge(defaults, discovered), custom);
    Merge(Merge(defaults, discovered), custom)
  }

  /** The merged, normalized path map, before any validation. */
  function Resolve(rootPath: string, custom: Arr, autoDiscover: bool, dirs: set<string>): (r: Arr)
    ensures forall i | 0 <= i < |r| :: IsNormalized(r[i].1)
  {
    var root := Normalize(rootPath);
    var merged := Layered(DefaultPaths(root), Discovered(root, autoDiscover, dirs), custom);
    NormalizeValuesUnique(merged);
    NormalizeValues(merged)
  }

  lemma NormalizeValuesUnique(m: Arr)
    ensures UniqueKeys(NormalizeValues(m))
  {
    var r := NormalizeValues(m);
    assert forall i | 0 <= i < |r| :: r[i].0 == m[i].0;
  }

  /**
   * When the discovered layer only holds keys the defaults already hold,
   * the key order is the defaults' followed by the new custom keys.
   */
  lemma LayeredKeys(defaults: Arr, discovered: Arr, custom: Arr)
    requires Keys(discovered) <= Keys(defaults)
    ensures KeySeq(Layered(defaults, discovered, custom)) == KeySeq(defaults) + NewKeys(Keys(defaults), custom)
  {
    FirstLayerKeys(defaults, discovered);
    MergeKeyOrder(Merge(defaults, discovered), custom);
  }

  lemma FirstLayerKeys(defaults: Arr, discovered: Arr)
    requires Keys(discovered) <= Keys(defaults)
    ensures KeySeq(Merge(defaults, discovered)) == KeySeq(defaults)
    ensures Keys(Merge(defaults, discovered)) == Keys(defaults)
  {
    MergeKeyOrder(defaults, discovered);
    NewKeysAllKnown(Keys(defaults), discovered);
    assert KeySeq(defaults) + [] == KeySeq(defaults);
  }

  /**
   * The resolved map holds the twelve built-in keys in default order,
   * followed by the custom keys that are not built-in, in the caller's order.
   */
  lemma ResolveKeys(rootPath: string, custom: Arr, autoDiscover: bool, dirs: set<string>)
    ensures KeySeq(Resolve(rootPath, custom, autoDiscover, dirs)) == Names(All) + NewKeys(NameSet(), custom)
  {
    var root := Normalize(rootPath);
    var defaults := DefaultPaths(root);
    var discovered := Discovered(root, autoDiscover, dirs);
    DiscoveredKeys(root, autoDiscover, dirs);
    LayeredKeys(defaults, discovered, custom);
    NormalizeValuesLookup(Layered(defaults, discovered, custom), "");
  }

  /** The resolved keys are exactly the built-in ones and the custom ones. */
  lemma ResolveKeySet(rootPath: string, custom: Arr, autoDiscover: bool, dirs: set<string>)
    ensures Keys(Resolve(rootPath, custom, autoDiscover, dirs)) == NameSet() + Keys(custom)
  {
    var root := Normalize(rootPath);
    var defaults := DefaultPaths(root);
    var discovered := Discovered(root, autoDiscover, dirs);
    DiscoveredKeys(root, autoDiscover, dirs);
    UnionAbsorb(Keys(defaults), Keys(discovered), Keys(custom));
    NormalizeValuesLookup(Layered(defaults, discovered, custom), "");
  }

  lemma DiscoveredKeys(root: string, autoDiscover: bool, dirs: set<string>)
    ensures Keys(Discovered(root, autoDiscover, dirs)) <= Keys(DefaultPaths(root))
  {
    if autoDiscover {
      DiscoverKeys(root, dirs);
    }
  }

  lemma UnionAbsorb<T>(a: set<T>, b: set<T>, c: set<T>)
    requires b <= a
    ensures a + b + c == a + c
  {
  }

  /** Per key, the custom layer wins, then the discovered one, then the default. */
  lemma LayeredLookup(defaults: Arr, discovered: Arr, custom: Arr, k: string)
    ensures Lookup(Layered(defaults, discovered, custom), k) ==
              if k in Keys(custom) then Lookup(custom, k)
              else if k in Keys(discovered) then Lookup(discovered, k)
              else Lookup(defaults, k)
  {
    MergeLookup(Merge(defaults, discovered), custom, k);
    MergeLookup(defaults, discovered, k);
  }

  /**
   * Precedence for a built-in category: a custom path wins, then a
   * discovered one, then the default; whichever wins is normalized.
   */
  lemma ResolveCategory(rootPath: string, custom: Arr, autoDiscover: bool, dirs: set<string>, c: Category)
    ensures var root := Normalize(rootPath);
            Lookup(Resolve(rootPath, custom, autoDiscover, dirs), c.Name()) ==
              if c.Name() in Keys(custom) then NormalizeOpt(Lookup(custom, c.Name()))
              else if autoDiscover && c != Root && Found(root, dirs, c).Some? then NormalizeOpt(Found(root, dirs, c))
              else Some(root + c.DefaultSuffix())
  {
    var root := Normalize(rootPath);
    LayeredCategory(root, custom, autoDiscover, dirs, c);
    NormalizeValuesLookup(Layered(DefaultPaths(root), Discovered(root, autoDiscover, dirs), custom), c.Name());
    DefaultStaysNormalized(rootPath, c);
  }

  /** The precedence before normalization: custom, then discovered, then default. */
  lemma LayeredCategory(root: string, custom: Arr, autoDiscover: bool, dirs: set<string>, c: Category)
    ensures Lookup(Layered(DefaultPaths(root), Discovered(root, autoDiscover, dirs), custom), c.Name()) ==
              if c.Name() in Keys(custom) then Lookup(custom, c.Name())
              else if autoDiscover && c != Root && Found(root, dirs, c).Some? then Found(root, dirs, c)
              else Some(root + c.DefaultSuffix())
  {
    LayeredLookup(DefaultPaths(root), Discovered(root, autoDiscover, dirs), custom, c.Name());
    DefaultLookup(root, c);
    if autoDiscover {
      DiscoverLookup(root, dirs, c);
    }
  }

  /** Every default suffix but the root's is a clean, non-empty relative path. */
  lemma SuffixNormalized(c: Category)
    ensures c != Root ==> c.DefaultSuffix() != "" && IsNormalized(c.DefaultSuffix())
  {
  }

  /** Under a normalized root, the defaults need no further normalization. */
  lemma DefaultStaysNormalized(rootPath: string, c: Category)
    ensures Normalize(Normalize(rootPath) + c.DefaultSuffix()) == Normalize(rootPath) + c.DefaultSuffix()
  {
    var root := Normalize(rootPath);
    if c == Root {
      assert root + c.DefaultSuffix() == root;
      NormalizeIdempotent(rootPath);
    } else {
      SuffixNormalized(c);
      NormalizeJoin(root, c.DefaultSuffix());
    }
  }

  /** A custom key, built-in or not, always resolves to its normalized custom path. */
  lemma ResolveCustom(rootPath: string, custom: Arr, autoDiscover: bool, dirs: set<string>, k: string)
    requires k in Keys(custom)
    ensures Lookup(Resolve(rootPath, custom, autoDiscover, dirs), k) == NormalizeOpt(Lookup(custom, k))
  {
    var root := Normalize(rootPath);
    var discovered := Discovered(root, autoDiscover, dirs);
    LayeredLookup(DefaultPaths(root), discovered, custom, k);
    NormalizeValuesLookup(Layered(DefaultPaths(root), discovered, custom), k);
  }

  /**
   * `new Paths($rootPath, $customPaths, $autoDiscover, $validatePaths)`:
   * fails with the first invalid entry when validation is on and some
   * resolved path is not a directory.
   */
  function Construct(rootPath: string, custom: Arr, autoDiscover: bool, validatePaths: bool, dirs: set<string>)
    : (r: Result<Paths, InvalidPath>)
    ensures var m := Resolve(rootPath, custom, autoDiscover, dirs);
            r.Success? <==> !validatePaths || forall i | 0 <= i < |m| :: m[i].1 in dirs
    ensures r.Success? ==> Valid(r.value)
    ensures r.Success? ==> r.value == Paths(Normalize(rootPath), Resolve(rootPath, custom, autoDiscover, dirs))
    ensures r.Failure? ==> var m := Resolve(rootPath, custom, autoDiscover, dirs);
            exists i :: FirstInvalid(m, dirs, i) && r.error == InvalidPath(m[i].0, m[i].1)
  {
    ResolveValid(rootPath, custom, autoDiscover, dirs);
    Checked(Paths(Normalize(rootPath), Resolve(rootPath, custom, autoDiscover, dirs)), validatePaths, dirs)
  }

  /** The constructor's last step: strict validation of the resolved paths, if asked for. */
  function Checked(p: Paths, validatePaths: bool, dirs: set<string>): (r: Result<Paths, InvalidPath>)
    requires Valid(p)
    ensures r.Success? <==> !validatePaths || forall i | 0 <= i < |p.entries| :: p.entries[i].1 in dirs
    ensures r.Success? ==> r.value == p
    ensures r.Failure? ==> exists i :: FirstInvalid(p.entries, dirs, i) && r.error == InvalidPath(p.entries[i].0, p.entries[i].1)
  {
    match Validate(p.entries, validatePaths, dirs)
    case Fail(e) => Failure(e)
    case Pass => Success(p)
  }

  lemma ResolveValid(rootPath: string, custom: Arr, autoDiscover: bool, dirs: set<string>)
    ensures Valid(Paths(Normalize(rootPath), Resolve(rootPath, custom, autoDiscover, dirs)))
  {
    ResolveKeySet(rootPath, custom, autoDiscover, dirs);
  }

  /** The getters `getRootPath()` … `getTestsPath()`: `$this->paths[name]`. */
  function Get(p: Paths, c: Category): (r: string)
    requires Valid(p)
    ensures Lookup(p.entries, c.Name()) == Some(r)
  {
    Lookup(p.entries, c.Name()).value
  }

  /**
   * What each getter returns: the normalized custom path when one was
   * given, else the discovered directory, else the default under the
   * normalized root.
   */
  lemma GetPrecedence(rootPath: string, custom: Arr, autoDiscover: bool, validatePaths: bool, dirs: set<string>, c: Category)
    ensures var r := Construct(rootPath, custom, autoDiscover, validatePaths, dirs);
            var root := Normalize(rootPath);
            r.Success? ==>
              Some(Get(r.value, c)) ==
                if c.Name() in Keys(custom) then NormalizeOpt(Lookup(custom, c.Name()))
                else if autoDiscover && c != Root && Found(root, dirs, c).Some? then NormalizeOpt(Found(root, dirs, c))
                else Some(root + c.DefaultSuffix())
  {
    ResolveCategory(rootPath, custom, autoDiscover, dirs, c);
  }

  /** A category given a custom path reads back that path, normalized. */
  lemma GetCustom(rootPath: string, custom: Arr, autoDiscover: bool, validatePaths: bool, dirs: set<string>, c: Category)
    requires c.Name() in Keys(custom)
    ensures var r := Construct(rootPath, custom, autoDiscover, validatePaths, dirs);
            r.Success? ==> Get(r.value, c) == Normalize(Lookup(custom, c.Name()).value)
  {
    GetPrecedence(rootPath, custom, autoDiscover, validatePaths, dirs, c);
  }

  /** A category with no custom path but a discovered directory reads back that directory, normalized. */
  lemma GetDiscovered(rootPath: string, custom: Arr, autoDiscover: bool, validatePaths: bool, dirs: set<string>, c: Category)
    requires c.Name() !in Keys(custom) && autoDiscover && c != Root
    requires Found(Normalize(rootPath), dirs, c).Some?
    ensures var r := Construct(rootPath, custom, autoDiscover, validatePaths, dirs);
            r.Success? ==> Get(r.value, c) == Normalize(Found(Normalize(rootPath), dirs, c).value)
  {
    GetPrecedence(rootPath, custom, autoDiscover, validatePaths, dirs, c);
  }

  /** Unless overridden, `getRootPath()` is the normalized constructor argument. */
  lemma RootPathNormalized(rootPath: string, custom: Arr, autoDiscover: bool, validatePaths: bool, dirs: set<string>)
    requires "root" !in Keys(custom)
    ensures var r := Construct(rootPath, custom, autoDiscover, validatePaths, dirs);
            r.Success? ==> Get(r.value, Root) == r.value.rootPath == Normalize(rootPath)
  {
    GetPrecedence(rootPath, custom, autoDiscover, validatePaths, dirs, Root);
  }

  /**
   * Without discovery or custom paths the registry is exactly the default
   * table: the twelve keys in order, each the normalized root plus its suffix.
   */
  lemma DefaultsOnly(rootPath: string, dirs: set<string>, c: Category)
    ensures Construct(rootPath, [], false, false, dirs).Success?
    ensures var p := Construct(rootPath, [], false, false, dirs).value;
            && KeySeq(p.entries) == Names(All)
            && Get(p, c) == Normalize(rootPath) + c.DefaultSuffix()
  {
    ResolveKeys(rootPath, [], false, dirs);
    assert NewKeys(NameSet(), []) == [];
    GetPrecedence(rootPath, [], false, false, dirs, c);
  }

  /**
   * Discovery that finds no candidate directory changes nothing: the
   * registry is the one built with discovery off.
   */
  lemma DiscoveryFindsNothing(rootPath: string, custom: Arr, validatePaths: bool, dirs: set<string>)
    requires forall c: Category :: Found(Normalize(rootPath), dirs, c) == None
    ensures Construct(rootPath, custom, true, validatePaths, dirs) == Construct(rootPath, custom, false, validatePaths, dirs)
  {
    DiscoverNothing(Normalize(rootPath), dirs);
    assert Discovered(Normalize(rootPath), true, dirs) == Discovered(Normalize(rootPath), false, dirs);
  }

  /** `path($path)`: the root, one slash, then the normalized path without leading slashes. */
  function Path(p: Paths, path: string): (r: string)
    requires Valid(p)
    ensures var root := Get(p, Root);
            && |r| > |root|
            && r[..|root| + 1] == root + "/"
            && !StartsWithSlash(r[|root| + 1..])
            && IsNormalized(r[|root| + 1..])
    ensures var tail, n := r[|Get(p, Root)| + 1..], Normalize(path);
            |tail| <= |n| && tail == n[|n| - |tail|..] && AllSlashes(n[..|n| - |tail|])
  {
    var root := Get(p, Root);
    var tail := LTrimSlashes(Normalize(path));
    assert (root + "/" + tail)[|root| + 1..] == tail;
    root + "/" + tail
  }

  /** `getBuildPath($buildDirectory)`: the directory under the public path. */
  function BuildPath(p: Paths, buildDirectory: string): (r: string)
    requires Valid(p)
    ensures |r| > |Get(p, Public)|
    ensures r[..|Get(p, Public)|] == Get(p, Public)
    ensures r[|Get(p, Public)|..] == "/" + buildDirectory
  {
    var r := Get(p, Public) + "/" + buildDirectory;
    assert r[..|Get(p, Public)|] == Get(p, Public);
    r
  }

  /** `getBuildAssetsPath($buildDirectory)`: always `public/assets`, whatever the argument. */
  function BuildAssetsPath(p: Paths, buildDirectory: string): (r: string)
    requires Valid(p)
    ensures r == BuildPath(p, "assets")
  {
    Get(p, Public) + "/assets"
  }

  /** The first of `candidates` that exists, if any. */
  function FirstExisting(candidates: seq<string>, files: set<string>): (r: Option<string>)
    ensures r.Some? ==> r.value in candidates && r.value in files
    ensures r.None? <==> forall i | 0 <= i < |candidates| :: candidates[i] !in files
    ensures r.Some? ==> exists i | 0 <= i < |candidates| ::
              candidates[i] == r.value && forall j | 0 <= j < i :: candidates[j] !in files
    ensures |candidates| > 0 && candidates[0] in files ==> r == Some(candidates[0])
  {
    if |candidates| == 0 then None
    else if candidates[0] in files then Some(candidates[0])
    else
      var r := FirstExisting(candidates[1..], files);
      assert r.Some? ==> forall i | 0 <= i < |candidates| - 1 && candidates[1..][i] == r.value
                                     && (forall j | 0 <= j < i :: candidates[1..][j] !in files) ::
                           candidates[i + 1] == r.value && forall j | 0 <= j < i + 1 :: candidates[j] !in files;
      r
  }

  /**
   * `getViteManifestPath($buildDirectory)`: `assets/manifest.json` when it
   * exists, otherwise `assets/.vite/manifest.json`, existing or not.
   */
  function ViteManifestPath(p: Paths, buildDirectory: string, files: set<string>): (r: string)
    requires Valid(p)
    ensures var assets := BuildAssetsPath(p, buildDirectory);
            r == if assets + "/manifest.json" in files then assets + "/manifest.json"
                 else assets + "/.vite/manifest.json"
  {
    var assets := Get(p, Public) + "/assets";
    var candidates := [assets + "/manifest.json", assets + "/.vite/manifest.json"];
    assert candidates[0] !in files ==> FirstExisting(candidates, files) == FirstExisting(candidates[1..], files);
    match FirstExisting(candidates, files)
    case Some(path) => path
    case None => assets + "/.vite/manifest.json"
  }

  /** `path()` ignores leading slashes of its argument. */
  lemma PathLeadingSlash(p: Paths, path: string)
    requires Valid(p)
    ensures Path(p, "/" + path) == Path(p, path)
  {
    LTrimNormalizeLeadingSlash(path);
  }

  /** `path()` sees its argument only through the normalizer. */
  lemma PathNormalizes(p: Paths, path: string)
    requires Valid(p)
    ensures Path(p, path) == Path(p, Normalize(path))
  {
    NormalizeIdempotent(path);
  }

  /** A clean relative path is appended to the root unchanged. */
  lemma PathClean(p: Paths, path: string)
    requires Valid(p)
    requires path != "" && IsNormalized(path) && !StartsWithSlash(path)
    ensures Path(p, path) == Get(p, Root) + "/" + path
  {
    NormalizeFixedPoint(path);
  }

  /**
   * The repository's constructor and getter tests, for any clean root such
   * as `/var/www/app` (see `Normalizer.NormalizeUnixExamples`): without
   * discovery or custom paths every getter returns the root plus its
   * suffix, and a trailing slash on the root makes no difference.
   */
  lemma ConstructorExamples(app: string, dirs: set<string>, c: Category)
    requires IsNormalized(app)
    ensures Construct(app, [], false, false, dirs).Success?
    ensures Construct(app + "/", [], false, false, dirs).Success?
    ensures Get(Construct(app, [], false, false, dirs).value, c) == app + c.DefaultSuffix()
    ensures Get(Construct(app + "/", [], false, false, dirs).value, c) == app + c.DefaultSuffix()
  {
    NormalizeFixedPoint(app);
    NormalizeTrailingSlash(app);
    DefaultsOnly(app, dirs, c);
    DefaultsOnly(app + "/", dirs, c);
  }

  /** The `path()` test: with or without a leading slash, `config/app.php` lands under the root. */
  lemma PathExample(p: Paths, rel: string)
    requires Valid(p)
    requires rel == "config/app.php"
    ensures Path(p, rel) == Get(p, Root) + "/" + rel
    ensures Path(p, "/" + rel) == Get(p, Root) + "/" + rel
  {
    PathClean(p, rel);
    PathLeadingSlash(p, rel);
  }

  /**
   * The repository's custom-paths test: under a clean root, a custom
   * `config` or `views` entry (`custom/config`, `custom/views` under the
   * root) is what the getter returns.
   */
  lemma CustomPathsExample(app: string, custom: Arr, autoDiscover: bool, dirs: set<string>, c: Category, sub: string)
    requires IsNormalized(app)
    requires (c, sub) == (Config, "custom/config") || (c, sub) == (Views, "custom/views")
    requires Lookup(custom, c.Name()) == Some(Join(app, sub))
    ensures Construct(app, custom, autoDiscover, false, dirs).Success?
    ensures Get(Construct(app, custom, autoDiscover, false, dirs).value, c) == Join(app, sub)
  {
    NormalizeJoin(app + "/", sub);
    GetCustom(app, custom, autoDiscover, false, dirs, c);
  }

  /**
   * The repository's auto-discovery test: with `config`, `templates` and
   * `public` under a clean root but no `resources/views`, the config, views
   * and public getters return those directories (views is `templates`),
   * whatever custom paths leave those three keys alone.
   */
  lemma AutoDiscoveryExample(root: string, custom: Arr, dirs: set<string>, c: Category, sub: string)
    requires IsNormalized(root)
    requires Join(root, "config") in dirs && Join(root, "templates") in dirs && Join(root, "public") in dirs
    requires Join(root, "resources/views") !in dirs
    requires (c, sub) == (Config, "config") || (c, sub) == (Views, "templates") || (c, sub) == (Public, "public")
    requires c.Name() !in Keys(custom)
    ensures Construct(root, custom, true, false, dirs).Success?
    ensures Get(Construct(root, custom, true, false, dirs).value, c) == Join(root, sub)
  {
    NormalizeFixedPoint(root);
    AutoDiscoveryFound(root, dirs, c, sub);
    GetDiscovered(root, custom, true, false, dirs, c);
  }

  /** In that test, each of the three categories finds its expected directory. */
  lemma AutoDiscoveryFound(root: string, dirs: set<string>, c: Category, sub: string)
    requires IsNormalized(root)
    requires Join(root, "config") in dirs && Join(root, "templates") in dirs && Join(root, "public") in dirs
    requires Join(root, "resources/views") !in dirs
    requires (c, sub) == (Config, "config") || (c, sub) == (Views, "templates") || (c, sub) == (Public, "public")
    ensures Found(root, dirs, c) == Some(Join(root, sub))
    ensures Normalize(Join(root, sub)) == Join(root, sub)
  {
    if c == Views {
      FoundSecond(root, dirs, Views, "resources/views", "templates");
    } else {
      FoundFirst(root, dirs, c, sub);
    }
  }
}

=== FILE: php_array.dfy ===
/**
 * PHP arrays with string keys: insertion-ordered maps from keys to values.
 * Only the operations the path registry uses are modelled: lookup,
 * assignment `$a[$k] = $v` and `array_merge`.
 */
module PhpArray {
  import opened Wrappers

  /** The entries of an array, in iteration order. */
  type Entries = seq<(string, string)>

  predicate UniqueKeys(m: Entries) {
    forall i, j | 0 <= i < j < |m| :: m[i].0 != m[j].0
  }

  /** A PHP array never holds the same key twice. */
  type Arr = m: Entries | UniqueKeys(m) witness []

  function Keys(m: Entries): (ks: set<string>)
    ensures forall k :: k in ks <==> exists i :: 0 <= i < |m| && m[i].0 == k
  {
    if |m| == 0 then {} else {m[0].0} + Keys(m[1..])
  }

  /** The keys in iteration order (`array_keys`). */
  function KeySeq(m: Entries): (ks: seq<string>)
    ensures |ks| == |m|
  {
    if |m| == 0 then [] else [m[0].0] + KeySeq(m[1..])
  }

  /** `$m[$k] ?? null`. */
  function Lookup(m: Entries, k: string): (r: Option<string>)
    ensures r.Some? <==> k in Keys(m)
    ensures r.Some? ==> (k, r.value) in m
    ensures UniqueKeys(m) ==> forall i | 0 <= i < |m| && m[i].0 == k :: r == Some(m[i].1)
  {
    if |m| == 0 then None
    else if m[0].0 == k then Some(m[0].1)
    else Lookup(m[1..], k)
  }

  /**
   * `$m[$k] = $v`: an existing key keeps its position and takes the new
   * value; a new key is appended.
   */
  function Put(m: Entries, k: string, v: string): (r: Entries)
    ensures Keys(r) == Keys(m) + {k}
  {
    if |m| == 0 then [(k, v)]
    else if m[0].0 == k then [(k, v)] + m[1..]
    else [m[0]] + Put(m[1..], k, v)
  }

  /** Assigning an existing key leaves the key order alone. */
  lemma {:induction false} PutKnownOrder(m: Entries, k: string, v: string)
    requires k in Keys(m)
    ensures KeySeq(Put(m, k, v)) == KeySeq(m)
    decreases |m|
  {
    if m[0].0 != k {
      PutKnownOrder(m[1..], k, v);
      assert Put(m, k, v)[1..] == Put(m[1..], k, v);
    } else {
      assert Put(m, k, v)[1..] == m[1..];
    }
  }

  /** Assigning a new key appends it. */
  lemma {:induction false} PutFresh(m: Entries, k: string, v: string)
    requires k !in Keys(m)
    ensures Put(m, k, v) == m + [(k, v)]
    decreases |m|
  {
    if |m| > 0 {
      assert Keys(m) == {m[0].0} + Keys(m[1..]);
      PutFresh(m[1..], k, v);
      SeqAssoc([m[0]], m[1..], [(k, v)]);
      assert [m[0]] + m[1..] == m;
    }
  }

  /** After `$m[$k] = $v`, `$m[$k]` is `v` and every other key reads as before. */
  lemma {:induction false} PutLookup(m: Entries, k: string, v: string, k': string)
    ensures Lookup(Put(m, k, v), k') == if k' == k then Some(v) else Lookup(m, k')
    decreases |m|
  {
    if |m| > 0 && m[0].0 != k {
      PutLookup(m[1..], k, v, k');
      assert Put(m, k, v)[1..] == Put(m[1..], k, v);
    } else if |m| > 0 {
      assert Put(m, k, v)[1..] == m[1..];
    }
  }

  /** Assignment never introduces a duplicate key. */
  lemma PutUnique(m: Arr, k: string, v: string)
    ensures UniqueKeys(Put(m, k, v))
  {
    if k in Keys(m) {
      PutKnownOrder(m, k, v);
      SameKeysUnique(m, Put(m, k, v));
    } else {
      PutFresh(m, k, v);
      AppendUnique(m, (k, v));
    }
  }

  /** Arrays with the same key order are equally free of duplicates. */
  lemma SameKeysUnique(m: Arr, r: Entries)
    requires KeySeq(r) == KeySeq(m)
    ensures UniqueKeys(r)
  {
    forall i | 0 <= i < |r| ensures r[i].0 == m[i].0 {
      KeySeqAt(r, i);
      KeySeqAt(m, i);
    }
  }

  /** Appending a new key keeps the keys distinct. */
  lemma AppendUnique(m: Arr, e: (string, string))
    requires e.0 !in Keys(m)
    ensures UniqueKeys(m + [e])
  {
    var r := m + [e];
    forall i, j | 0 <= i < j < |r| ensures r[i].0 != r[j].0 {
      if j == |m| {
        assert r[i] == m[i];
      } else {
        assert r[i] == m[i] && r[j] == m[j];
      }
    }
  }

  /** The keys of `b` that are not in `known`, in `b`'s order. */
  function NewKeys(known: set<string>, b: Entries): seq<string>
  {
    if |b| == 0 then []
    else (if b[0].0 in known then [] else [b[0].0]) + NewKeys(known, b[1..])
  }

  /**
   * `array_merge($a, $b)` for string keys: the entries of `b` are assigned
   * one by one onto `a`, so later arrays win.
   */
  function Merge(a: Entries, b: Entries): (r: Entries)
    ensures Keys(r) == Keys(a) + Keys(b)
    decreases |b|
  {
    if |b| == 0 then a else Merge(Put(a, b[0].0, b[0].1), b[1..])
  }

  /** `array_merge` of a PHP array with anything is again a PHP array. */
  lemma {:induction false} MergeUnique(a: Arr, b: Entries)
    ensures UniqueKeys(Merge(a, b))
    decreases |b|
  {
    if |b| > 0 {
      PutUnique(a, b[0].0, b[0].1);
      MergeUnique(Put(a, b[0].0, b[0].1), b[1..]);
    }
  }

  /** Knowing one more key that `b` does not hold changes nothing. */
  lemma {:induction false} NewKeysIgnoresAbsent(known: set<string>, x: string, b: Entries)
    requires x !in Keys(b)
    ensures NewKeys(known + {x}, b) == NewKeys(known, b)
    decreases |b|
  {
    if |b| > 0 {
      NewKeysIgnoresAbsent(known, x, b[1..]);
    }
  }

  /** With every key already known, nothing is new. */
  lemma {:induction false} NewKeysAllKnown(known: set<string>, b: Entries)
    requires Keys(b) <= known
    ensures NewKeys(known, b) == []
    decreases |b|
  {
    if |b| > 0 {
      NewKeysAllKnown(known, b[1..]);
    }
  }

  lemma {:induction false} KeySeqAt(m: Entries, i: nat)
    requires i < |m|
    ensures KeySeq(m)[i] == m[i].0
    decreases i
  {
    if i > 0 {
      KeySeqAt(m[1..], i - 1);
    }
  }

  lemma {:induction false} KeySeqAppend(m: Entries, e: (string, string))
    ensures KeySeq(m + [e]) == KeySeq(m) + [e.0]
    decreases |m|
  {
    if |m| > 0 {
      assert (m + [e])[1..] == m[1..] + [e];
      KeySeqAppend(m[1..], e);
    }
  }

  /** In `array_merge($a, $b)` every key takes its value from `b` when `b` has it, else from `a`. */
  lemma {:induction false} MergeLookup(a: Entries, b: Arr, k: string)
    ensures Lookup(Merge(a, b), k) == if k in Keys(b) then Lookup(b, k) else Lookup(a, k)
    decreases |b|
  {
    if |b| > 0 {
      var a' := Put(a, b[0].0, b[0].1);
      var b': Arr := b[1..];
      MergeLookup(a', b', k);
      PutLookup(a, b[0].0, b[0].1, k);
      if k == b[0].0 {
        assert k !in Keys(b');
      } else {
        assert Lookup(b, k) == Lookup(b', k);
      }
    }
  }

  /** `array_merge($a, $b)` keeps `a`'s key order and appends `b`'s new keys in `b`'s order. */
  lemma {:induction false} MergeKeyOrder(a: Entries, b: Arr)
    ensures KeySeq(Merge(a, b)) == KeySeq(a) + NewKeys(Keys(a), b)
    decreases |b|
  {
    if |b| > 0 {
      var a' := Put(a, b[0].0, b[0].1);
      var b': Arr := b[1..];
      MergeKeyOrder(a', b');
      if b[0].0 in Keys(a) {
        KnownKeyOrder(a, b);
      } else {
        FreshKeyOrder(a, b);
      }
    }
  }

  /** Assigning a key that `a` already holds leaves its key order alone. */
  lemma KnownKeyOrder(a: Entries, b: Arr)
    requires |b| > 0 && b[0].0 in Keys(a)
    ensures var a' := Put(a, b[0].0, b[0].1);
            KeySeq(a') + NewKeys(Keys(a'), b[1..]) == KeySeq(a) + NewKeys(Keys(a), b)
  {
    PutKnownKeys(a, b[0].0, b[0].1);
    PutKnownOrder(a, b[0].0, b[0].1);
    NewKeysSkipKnown(Keys(a), b);
  }

  lemma PutKnownKeys(m: Entries, k: string, v: string)
    requires k in Keys(m)
    ensures Keys(Put(m, k, v)) == Keys(m)
  {
  }

  lemma NewKeysSkipKnown(known: set<string>, b: Entries)
    requires |b| > 0 && b[0].0 in known
    ensures NewKeys(known, b) == NewKeys(known, b[1..])
  {
  }

  /** Assigning a key that `a` lacks appends it, and it is then no longer new. */
  lemma FreshKeyOrder(a: Entries, b: Arr)
    requires |b| > 0 && b[0].0 !in Keys(a)
    ensures var a' := Put(a, b[0].0, b[0].1);
            KeySeq(a') + NewKeys(Keys(a'), b[1..]) == KeySeq(a) + NewKeys(Keys(a), b)
  {
    var x, b' := b[0].0, b[1..];
    var n := NewKeys(Keys(a), b');
    PutFresh(a, x, b[0].1);
    KeySeqAppend(a, b[0]);
    assert x !in Keys(b');
    NewKeysIgnoresAbsent(Keys(a), x, b');
    SeqAssoc(KeySeq(a), [x], n);
  }

  lemma SeqAssoc<T>(p: seq<T>, q: seq<T>, r: seq<T>)
    ensures p + q + r == p + (q + r)
  {
  }
}

=== FILE: php_path.dfy ===
/**
 * The two PHP string functions the base-path detection relies on:
 * `dirname` (with and without a level count, as the engine computes it
 * on `/`-separated paths) and the path component of `parse_url` for a
 * request target.
 */
module PhpPath {
  import opened Normalizer

  predicate NoSlash(s: string) {
    forall i | 0 <= i < |s| :: s[i] != '/'
  }

  /** Strips the last name of `s`: the longest prefix that is empty or ends with a slash. */
  function DropName(s: string): (r: string)
    ensures r <= s
    ensures r == "" || EndsWithSlash(r)
    ensures NoSlash(s[|r|..])
  {
    if |s| == 0 || s[|s| - 1] == '/' then s
    else
      var r := DropName(s[..|s| - 1]);
      assert s[|r|..] == s[..|s| - 1][|r|..] + [s[|s| - 1]];
      r
  }

  /**
   * `dirname($s)`: trailing slashes, the last name and the slashes before
   * it are removed; a path of slashes only gives "/", a bare name ".",
   * and the empty string stays empty.
   */
  function Dirname(s: string): (r: string)
    ensures s == "" <==> r == ""
    ensures |r| <= |s|
    ensures r == "/" || r == "." || r == "" || (r < s && !EndsWithSlash(r))
    ensures NoSlash(s) && s != "" ==> r == "."
    ensures AllSlashes(s) && s != "" ==> r == "/"
  {
    if s == "" then ""
    else
      var a := RTrimSlashes(s);
      if a == "" then "/"
      else
        var b := DropName(a);
        if b == "" then "."
        else
          var c := RTrimSlashes(b);
          assert !NoSlash(s) by { assert s[|b| - 1] == '/'; }
          if c == "" then "/" else c
  }

  /** A path of slashes only, or a name with no slash, is its own parent. */
  lemma DirnameFixed(s: string)
    requires s == "/" || s == "."
    ensures Dirname(s) == s
  {
  }

  /** Trailing slashes do not change the directory: `dirname('a/b/')` is `dirname('a/b')`. */
  lemma DirnameTrailing(s: string)
    requires s != ""
    ensures Dirname(s + "/") == Dirname(s)
  {
    assert RTrimSlashes(s + "/") == RTrimSlashes(s) by {
      assert (s + "/")[..|s|] == s;
    }
    DirnameByTrim(s + "/", s);
  }

  /** `dirname` sees its argument only through `rtrim($s, '/')`. */
  lemma DirnameByTrim(s: string, t: string)
    requires s != "" && t != "" && RTrimSlashes(s) == RTrimSlashes(t)
    ensures Dirname(s) == Dirname(t)
  {
  }

  /**
   * The directory of `dir/name` is `dir` without its trailing slashes, for
   * a plain name: `dirname('a/b')` and `dirname('a//b')` are both `a`.
   */
  lemma DirnameChild(dir: string, name: string)
    requires RTrimSlashes(dir) != ""
    requires name != "" && NoSlash(name)
    ensures Dirname(dir + "/" + name) == RTrimSlashes(dir)
  {
    var s := dir + "/" + name;
    assert RTrimSlashes(s) == s by { assert s[|s| - 1] == name[|name| - 1]; }
    assert DropName(s) == dir + "/" by {
      assert s[..|dir| + 1] == dir + "/" && s[|dir| + 1..] == name && s[|dir|] == '/';
      DropNameAt(s, |dir| + 1);
    }
    var a := RTrimSlashes(dir);
    assert RTrimSlashes(dir + "/") == a by {
      assert (dir + "/")[..|dir|] == dir;
    }
    DirnameOfParent(s, dir + "/");
  }

  /** When `s` has no trailing slash and a parent `b`, its directory is `b` without trailing slashes. */
  lemma DirnameOfParent(s: string, b: string)
    requires s != "" && RTrimSlashes(s) == s && DropName(s) == b && RTrimSlashes(b) != ""
    ensures Dirname(s) == RTrimSlashes(b)
  {
  }

  /** The directory of a plain name below slashes only (`/name`, `//name`) is the filesystem root. */
  lemma DirnameTop(dir: string, name: string)
    requires AllSlashes(dir)
    requires name != "" && NoSlash(name)
    ensures Dirname(dir + "/" + name) == "/"
  {
    var s := dir + "/" + name;
    assert RTrimSlashes(s) == s by { assert s[|s| - 1] == name[|name| - 1]; }
    assert s[..|dir| + 1] == dir + "/";
    DropNameAt(s, |dir| + 1);
    assert AllSlashes((dir + "/")[0..]);
    RTrimSlashesUnique(dir + "/", "");
  }

  /** When `s[..k]` ends with the last slash of `s`, dropping the name leaves exactly `s[..k]`. */
  lemma {:induction false} DropNameAt(s: string, k: nat)
    requires 0 < k <= |s| && s[k - 1] == '/' && NoSlash(s[k..])
    ensures DropName(s) == s[..k]
    decreases |s|
  {
    if |s| > k {
      assert s[|s| - 1] == s[k..][|s| - 1 - k];
      assert s[..|s| - 1][k..] == s[k..][..|s| - 1 - k];
      DropNameAt(s[..|s| - 1], k);
      assert s[..|s| - 1][..k] == s[..k];
    } else {
      assert s[..k] == s;
    }
  }

  /**
   * `dirname($s, $levels)`: the engine applies `dirname` up to `levels`
   * times and stops early once a step no longer shortens the path.
   */
  function DirnameLevels(s: string, levels: nat): (r: string)
    requires levels >= 1
    ensures |r| <= |s|
    decreases levels
  {
    var d := Dirname(s);
    if |d| < |s| && levels > 1 then DirnameLevels(d, levels - 1) else d
  }

  /** A `dirname` step that does not shorten the path has reached a fixed point. */
  lemma DirnameNoShrink(s: string)
    requires |Dirname(s)| == |s|
    ensures Dirname(Dirname(s)) == Dirname(s)
  {
  }

  /** Two levels up is `dirname` applied twice. */
  lemma DirnameTwoLevels(s: string)
    ensures DirnameLevels(s, 2) == Dirname(Dirname(s))
  {
    if |Dirname(s)| == |s| {
      DirnameNoShrink(s);
    }
  }

  predicate NoQueryOrFragment(s: string) {
    forall i | 0 <= i < |s| :: s[i] != '?' && s[i] != '#'
  }

  /**
   * `parse_url($uri, PHP_URL_PATH)` for an origin-form request target:
   * everything before the first `?` or `#`.
   */
  function UrlPath(uri: string): (r: string)
    ensures r <= uri
    ensures NoQueryOrFragment(r)
    ensures |r| < |uri| ==> uri[|r|] == '?' || uri[|r|] == '#'
  {
    if |uri| == 0 || uri[0] == '?' || uri[0] == '#' then ""
    else
      var r := UrlPath(uri[1..]);
      assert [uri[0]] + r <= uri;
      [uri[0]] + r
  }

  /** A target without query or fragment is all path. */
  lemma {:induction false} UrlPathClean(path: string)
    requires NoQueryOrFragment(path)
    ensures UrlPath(path) == path
    decreases |path|
  {
    if |path| > 0 {
      UrlPathClean(path[1..]);
    }
  }

  /** The query string and fragment are cut off the path. */
  lemma UrlPathQuery(path: string, rest: string)
    requires NoQueryOrFragment(path)
    requires rest == "" || rest[0] == '?' || rest[0] == '#'
    ensures UrlPath(path + rest) == path
  {
    assert (path + rest)[..|path|] == path;
  }
}

=== FILE: validator.dfy ===
/**
 * The path validator: in strict mode, the first entry (in array order)
 * whose path is not an existing directory raises an invalid-path error;
 * otherwise validation is silent. `is_dir` is the set `dirs`.
 */
module Validator {
  import opened Wrappers
  import opened PhpArray

  /** The invalid-path exception: the offending category and path. */
  datatype InvalidPath = InvalidPath(key: string, path: string) {
    /** The exception text: fixed wording, the quoted category, more fixed wording, then the path. */
    function Message(): (m: string)
      ensures |m| == 21 + |key| + 28 + |path|
      ensures m[21..21 + |key|] == key
      ensures m[|m| - |path|..] == path
    {
      "Configured path for \"" + key + "\" is not a valid directory: " + path
    }
  }

  /** The message tells the category and the path apart: equal messages for one category mean equal paths. */
  lemma MessageNamesPath(a: InvalidPath, b: InvalidPath)
    requires a.key == b.key
    ensures a.Message() == b.Message() ==> a.path == b.path
  {
  }

  /** Entry `i` is the first whose path is not an existing directory. */
  predicate FirstInvalid(paths: Entries, dirs: set<string>, i: int) {
    && 0 <= i < |paths|
    && paths[i].1 !in dirs
    && forall j | 0 <= j < i :: paths[j].1 in dirs
  }

  function Validate(paths: Entries, strict: bool, dirs: set<string>): (r: Outcome<InvalidPath>)
    ensures !strict ==> r == Pass
    ensures strict ==> (r.Fail? <==> exists i | 0 <= i < |paths| :: paths[i].1 !in dirs)
    ensures r.Fail? ==> exists i :: FirstInvalid(paths, dirs, i) && r.error == InvalidPath(paths[i].0, paths[i].1)
  {
    if |paths| == 0 then Pass
    else if strict && paths[0].1 !in dirs then
      assert FirstInvalid(paths, dirs, 0);
      Fail(InvalidPath(paths[0].0, paths[0].1))
    else
      var r := Validate(paths[1..], strict, dirs);
      assert strict ==> forall i | FirstInvalid(paths[1..], dirs, i) :: FirstInvalid(paths, dirs, i + 1);
      r
  }

  /** The repository's validator test: existing directories pass, missing ones fail only when strict. */
  lemma ValidateExample(root: string)
    ensures Validate([("config", root + "/config"), ("views", root + "/resources/views")], true,
                     {root + "/config", root + "/resources/views"}) == Pass
    ensures Validate([("config", root + "/config"), ("views", root + "/resources/views")], false, {root}) == Pass
    ensures Validate([("config", root + "/config"), ("views", root + "/resources/views")], true, {root})
            == Fail(InvalidPath("config", root + "/config"))
  {
    assert |root + "/config"| != |root|;
  }
}

=== FILE: wrappers.dfy ===
/** Failure-compatible result types used throughout the model. */
module Wrappers {

  /** A value that may be absent: PHP's `null` or a missing array key. */
  datatype Option<+T> = None | Some(value: T) {
    function GetOr(default: T): T {
      match this
      case Some(v) => v
      case None => default
    }
  }

  /** A computation that either produces a value or raises an error. */
  datatype Result<+R, +E> = Success(value: R) | Failure(error: E)

  /** A check that either passes silently or raises an error. */
  datatype Outcome<+E> = Pass | Fail(error: E)
}
